=== FILE: README.md ===
# Savings-goal ledger: a Dafny model

This project models the business logic of a household-budgeting web app.
The app has savings goals ("items") with a target price and an amount saved,
a log of contributions ("entries"), a shopping list, and an investments
panel. In the app this logic lives in React state updates and in sums the
components derive. Here it is written as pure functions over immutable
records and sequences.

- Money is `real`, so arithmetic is exact.
- Quantities are `int`.
- A nullable column, or a JavaScript number that may be NaN, is an `Option`.

Every call to the hosted backend (select, insert, update, delete, upsert,
auth lookup) becomes an input: an `Outcome` (`Success`/`Failure`) or a
`Response` (`Ok(data)`/`Err`). The local state changes only as the code
lets it after that input. In the source an error is thrown before
`setItems`, so a failed call leaves the list as it was.

Modules, one per source component:

| module | models |
|---|---|
| `Wrappers`, `JsNumbers` | `Option`/`Response`/`Outcome`; JavaScript's `x \|\| d`, `null * y`, `Math.min` |
| `Collections` | `reduce` as `Sum`, `filter`, `map` with a condition, `find`, with their lemmas |
| `Entities` | rows of `items`, `item_entries`, `shopping_list`, `investments`, `financial_settings` |
| `ItemsStore` | the `useItems` hook, plus the remote entry log (`Ledger`) |
| `MockPage` | the standalone page with an in-memory list in the older camel-case item shape |
| `ShoppingList` | the shopping-list reducers and its two totals |
| `FinancialControl` | investment roll-ups, yield projection, rate fallback, quotas, add form, settings upsert payload |
| `Progress` | summary and per-card progress, bar cap, remaining amounts |
| `ItemCard` | confirm-gated delete, entry forwarding, and the card-to-store compositions |
| `EntryForm`, `AddItemForm`, `EditItemForm` | the three dialogs' submit rules |

In these places the model follows the code, which a reader might not expect:

- `handleUpdateQuantity` does not validate the quantity. Zero and negative values are stored.
- Item cards measure progress and "remaining" against the unit price, not price × quantity. They also have no guard against a zero price.
- On the standalone page, `totalValue` is the sum of prices, so quantity is ignored.
- `remaining` is never clamped at zero.

The wiring has two quirks. First, `ItemCard` calls `onAddEntry(item.id, amount, description)`. The grid connects that to the hook's `handleAddEntry(itemId, amount, quantity, description)`, so the description arrives in the quantity slot. The model follows each component's own signature. `ItemsStore.AddEntry` takes the quantity as a separate input. Second, the standalone page hands its `handleAddItem` to `AddItemModal`, whose draft uses the snake-case keys `amount_saved` and `image_url`. The page reads `amountSaved` and `imageUrl`, so an item added through the dialog has neither (see Findings).

## Model

| member | source | states |
|---|---|---|
| ItemsStore.Normalize | src/hooks/useItems.ts:22-26 | a null or zero quantity becomes 1 (never 0 after), other quantities are kept, null links become [], and every other column is copied |
| ItemsStore.NormalizeRoundTrip | src/hooks/useItems.ts:22-26 | an item with non-zero quantity, stored and fetched back, is unchanged |
| ItemsStore.NormalizeIdempotent | src/hooks/useItems.ts:22-26 | defaulting an already defaulted row changes nothing |
| ItemsStore.FetchItems | src/hooks/useItems.ts:12-28 | on success the list is the fetched rows, same length and order, each defaulted; null data gives []; on error the list is kept |
| ItemsStore.AddItem | src/hooks/useItems.ts:34-54 | with no user or on a backend error the list is unchanged; otherwise exactly one defaulted item is put at the head and the rest follow unchanged and in order |
| ItemsStore.AddItemKeepsIdsUnique | src/hooks/useItems.ts:54 | prepending a row with a fresh id keeps ids unique |
| ItemsStore.UpdateItem | src/hooks/useItems.ts:69-86 | on error nothing changes; otherwise every element with the id becomes the updated item, the others and the length stay, ids stay in place, and an unknown id is a no-op |
| ItemsStore.UpdateThenFind | src/hooks/useItems.ts:86 | after a successful update, looking the id up finds the updated item |
| ItemsStore.UpdateTwiceLastWins | src/hooks/useItems.ts:86 | two updates of the same id leave only the second |
| ItemsStore.DeleteItem | src/hooks/useItems.ts:101-110 | on error nothing changes; otherwise exactly the elements with other ids remain; an absent id is a no-op |
| ItemsStore.DeleteKeepsOrder | src/hooks/useItems.ts:110 | deleting distributes over concatenation, so the survivors keep their relative order |
| ItemsStore.DeleteRemovesExactlyOne | src/hooks/useItems.ts:110 | deleting an id that occurs once turns a + [x] + b into a + b |
| ItemsStore.DeleteIdempotent | src/hooks/useItems.ts:110 | deleting the same id twice is deleting it once |
| ItemsStore.AddEntry | src/hooks/useItems.ts:125-154 | a failed insert changes nothing; a successful insert appends exactly one entry to the log; an absent item or a failed aggregate write leaves the list unchanged; only `amount_saved` of items with the id can change |
| ItemsStore.Saved | src/hooks/useItems.ts:140-142 | an absent id reads as 0 saved; otherwise the saved amount is that of the first item carrying the id, as `find` returns it |
| ItemsStore.Logged | src/hooks/useItems.ts:128-135 | the amount logged against an item is the sum of its inserted entries: 0 when none is for it, never negative when no entry amount is |
| ItemsStore.FindUnique | src/hooks/useItems.ts:140 | with unique ids, `find` by id returns the one item carrying it |
| ItemsStore.AddEntryCreditsItem | src/hooks/useItems.ts:140-154 | with unique ids, full success turns the k-th item into itself with `amount_saved` raised by `amount` |
| ItemsStore.AddEntryCredits | src/hooks/useItems.ts:140-154 | on full success the item's `amount_saved` rises by exactly `amount`, whatever the quantity, no other field changes, and its logged total rises by the same amount |
| ItemsStore.AddEntryDriftWindow | src/hooks/useItems.ts:128-149 | insert succeeds and the aggregate write fails: the list is unchanged, the log grew by one, and the gap between the logged total and `amount_saved` widens by `amount` |
| ItemsStore.AddEntryLeavesOthers | src/hooks/useItems.ts:152-154 | an entry for one item leaves every other item's saved and logged totals alone |
| ItemsStore.UpdateQuantity | src/hooks/useItems.ts:170-182 | on error nothing changes; otherwise items with the id take the new quantity, no other field or item changes, and the value is not validated |
| ItemsStore.UpdateQuantityLastWins | src/hooks/useItems.ts:180-182 | setting the quantity twice leaves only the second value |
| MockPage.AddItem | src/pages/Index.tsx:34-40 | for the declared parameter type, the list grows by one at the tail, the prefix is unchanged, and the new item carries the draft's fields and the supplied id and time |
| MockPage.AddFromDialogAsWritten | src/pages/Index.tsx:34-40 | fed the add dialog's draft, the appended item has the draft's name, description and price but no `amountSaved` and no `imageUrl` |
| MockPage.PageDraft | src/components/AddItemModal.tsx:18-24 | the dialog's draft read in the page's keys: every field carried over, `amount_saved` as `amountSaved`, `image_url` as `imageUrl` |
| MockPage.AddFromDialog | src/pages/Index.tsx:149-153 | the intended wiring: the appended item carries the dialog's saved amount and image, and differs from the as-written item only in those two fields |
| MockPage.UpdateItem | src/pages/Index.tsx:44-46 | elements with the id become the updated item; all others and the length stay |
| MockPage.DeleteItem | src/pages/Index.tsx:48-50 | only elements with other ids remain, every such element remains, the list does not grow, and an absent id is a no-op |
| MockPage.DeleteKeepsOrder | src/pages/Index.tsx:49 | deleting distributes over concatenation, so order is kept |
| MockPage.TotalValue | src/pages/Index.tsx:52 | the price total is never negative when no price is |
| MockPage.AllSavedSnoc | src/pages/Index.tsx:53 | a list has every saved amount exactly when its prefix does and the last item has one |
| MockPage.TotalSaved | src/pages/Index.tsx:53 | the saved total is a number exactly when every item has `amountSaved`, and then it is their sum; otherwise it is NaN |
| MockPage.ProgressPercentage | src/pages/Index.tsx:52-54 | 0 when the price total is not positive; otherwise NaN when the saved total is NaN, and else the percentage p with p × totalValue = totalSaved × 100 |
| MockPage.TotalsAfterAdd | src/pages/Index.tsx:34-40 | appending raises the price total by the new price and a defined saved total by its saved amount; a NaN saved total stays NaN |
| MockPage.DialogAddMakesTotalsNaN | src/pages/Index.tsx:34-40 | after one add through the dialog as wired, the saved total is NaN and stays NaN whatever is appended later, and the percentage is NaN once prices are positive |
| MockPage.SeedThenDialogAdd | src/pages/Index.tsx:11-40 | the two sample items plus a dialog item priced 500 total 2550 in prices, while the saved total and the percentage are NaN |
| MockPage.DialogAddKeepsTotals | src/pages/Index.tsx:52-53 | with the keys translated, an add raises the price total by the price and a defined saved total by the saved amount |
| MockPage.TotalValueAfterDelete | src/pages/Index.tsx:48-52 | deleting lowers the price total by exactly the removed items' prices |
| MockPage.TotalSavedAfterDelete | src/pages/Index.tsx:48-53 | deleting keeps a defined saved total defined and lowers it by exactly the removed items' savings |
| MockPage.UpdateUnique | src/pages/Index.tsx:45 | updating the one item with an id turns a + [x] + b into a + [u] + b |
| MockPage.TotalValueAfterUpdate | src/pages/Index.tsx:44-52 | replacing the one item with an id moves the price total by the change in price |
| MockPage.TotalSavedAfterUpdate | src/pages/Index.tsx:44-53 | replacing it with an item that has a saved amount moves a defined saved total by the change in savings |
| MockPage.SeedSummary | src/pages/Index.tsx:11-30 | the two sample items total 2050 in prices and 770 saved, and the summary is a number below 100% |
| ShoppingList.FetchItems | src/components/ShoppingList.tsx:19-27 | on success the rows as returned, null data as []; on error the list is kept |
| ShoppingList.SetDraftQuantity | src/components/ShoppingList.tsx:147 | the quantity input stores `parseInt \|\| 1`: never 0, a non-zero parse kept, nothing else changes |
| ShoppingList.SetDraftPrice | src/components/ShoppingList.tsx:155 | the price input stores 0 exactly when the parse is NaN or 0, and the parsed number otherwise |
| ShoppingList.AddItem | src/components/ShoppingList.tsx:35-52 | a blank (all-whitespace) name or a backend error changes nothing; otherwise one row is put at the head and the draft resets to ("", 1, 0) |
| ShoppingList.TogglePurchased | src/components/ShoppingList.tsx:58-69 | on error nothing changes; otherwise only rows with the id change, and only their flag, to the negation of the rendered flag |
| ShoppingList.ToggleTwiceRestores | src/components/ShoppingList.tsx:67-69 | toggling a row whose flag is set, twice, restores the list |
| ShoppingList.ToggleTwiceFromNull | src/components/ShoppingList.tsx:58-69 | a null flag toggled twice ends up false, not null |
| ShoppingList.DeleteItem | src/components/ShoppingList.tsx:75-84 | on error nothing changes; otherwise only rows with other ids remain, every such row remains, the list does not grow, and an absent id is a no-op |
| ShoppingList.DeleteKeepsOrder | src/components/ShoppingList.tsx:84 | deleting distributes over concatenation, so order is kept |
| ShoppingList.UpdateItemPrice | src/components/ShoppingList.tsx:90-101 | on error nothing changes; otherwise only rows with the id change, and only their price |
| ShoppingList.LineValue | src/components/ShoppingList.tsx:107-108 | a row's value is 0 when price or quantity is null, price × quantity otherwise, and never negative when both are not |
| ShoppingList.TotalValue | src/components/ShoppingList.tsx:107 | the total is never negative when no row value is |
| ShoppingList.TotalSplitsByPurchase | src/components/ShoppingList.tsx:107-108 | the total is the purchased total plus the unpurchased total |
| ShoppingList.PurchasedValue | src/components/ShoppingList.tsx:108 | with no negative row value, the purchased total lies between 0 and the total |
| ShoppingList.TotalAfterAdd | src/components/ShoppingList.tsx:107 | a successful add raises the total by the new row's price × quantity |
| ShoppingList.TotalAfterDelete | src/components/ShoppingList.tsx:107 | a delete lowers the total by exactly the removed rows' line values |
| ShoppingList.ToggleKeepsTotal | src/components/ShoppingList.tsx:107 | toggling never changes the total |
| ShoppingList.RepriceOpenKeepsPurchased | src/components/ShoppingList.tsx:194-196 | the price input is disabled on bought rows; re-pricing only rows that are not bought leaves the purchased total unchanged |
| ShoppingList.TotalAfterPriceUpdate | src/components/ShoppingList.tsx:99-107 | re-pricing a row with a unique id moves the total by that row's change in line value |
| ShoppingList.TwoRowTotals | src/components/ShoppingList.tsx:107-108 | rows 2 × 10 (open) and 1 × 5 (bought) give total 25 and purchased 5 |
| FinancialControl.TotalInvested | src/components/FinancialControl.tsx:118 | the total invested is never negative when no amount is |
| FinancialControl.InvestmentsByType | src/components/FinancialControl.tsx:119-122 | no investments give no groups, and the latest investment's type always has a group |
| FinancialControl.GroupKeys | src/components/FinancialControl.tsx:119-122 | a type has a group exactly when some investment has that type |
| FinancialControl.GroupValues | src/components/FinancialControl.tsx:119-122 | each group equals the sum of the amounts of its type |
| FinancialControl.TypeTotalSnoc | src/components/FinancialControl.tsx:119-122 | appending an investment raises its own type's total by its amount and no other type's total |
| FinancialControl.TypeTotalsSumToSum | src/components/FinancialControl.tsx:118-122 | the four per-type totals add up to the sum of all amounts |
| FinancialControl.TypeTotalsSumToTotal | src/components/FinancialControl.tsx:118 | the four per-type totals add up to the total invested |
| FinancialControl.GroupsSumToTotal | src/components/FinancialControl.tsx:118-122 | the groups the reduce builds add up to `totalInvested` |
| FinancialControl.AppendChangesOnlyItsGroup | src/components/FinancialControl.tsx:119-122 | appending an investment of type t raises group t by exactly its amount and leaves every other group as it was |
| FinancialControl.Yield | src/components/FinancialControl.tsx:130-132 | the yield y satisfies y × 100 = amount × rate |
| FinancialControl.YieldLinear | src/components/FinancialControl.tsx:130-132 | the yield of 0 is 0, and the yield is additive and homogeneous in the amount |
| FinancialControl.EffectiveCdiRate | src/components/FinancialControl.tsx:161 | the stored CDI rate unless settings are missing or the rate is null or 0, then 10.75; never 0 |
| FinancialControl.EffectiveSelicRate | src/components/FinancialControl.tsx:365 | the same fallback for the Selic input |
| FinancialControl.ProjectedYield | src/components/FinancialControl.tsx:173 | the projected yield y satisfies y × 100 = totalInvested × the effective CDI rate, and with no settings the rate is 10.75 |
| FinancialControl.ProjectedYieldAppend | src/components/FinancialControl.tsx:173 | appending an investment raises the projected yield by that investment's own yield at the effective rate |
| FinancialControl.QuotaCount | src/components/FinancialControl.tsx:326 | for price > 0 the count q is a non-negative integer with q × price ≤ 1000 < (q + 1) × price |
| FinancialControl.MonthlyIncome | src/components/FinancialControl.tsx:326-329 | for price > 0 and a non-negative dividend, the monthly income m satisfies m × price ≤ 1000 × dividend, and with a positive dividend (1000 − price) × dividend < m × price |
| FinancialControl.FixedFundFigures | src/components/FinancialControl.tsx:125-128 | 1000 buys 10 CTPS11 quotas (9.50 a month) and 102 MXRF11 quotas (8.16 a month) |
| FinancialControl.SetDraftAmount | src/components/FinancialControl.tsx:229 | the amount input stores 0 exactly when the parse is NaN or 0, and the parsed number otherwise |
| FinancialControl.AddInvestment | src/components/FinancialControl.tsx:60-78 | with no user or on error nothing is inserted and the form stays; on success the form's fields are inserted under the user's id and the form resets to ("", unselected, 0) |
| FinancialControl.TypeTotalCons | src/components/FinancialControl.tsx:119-122 | putting an investment in front raises its own type's total by its amount and no other type's total |
| FinancialControl.AddInvestmentRaisesTotals | src/components/FinancialControl.tsx:30-38 | a successful add followed by the newest-first refetch raises `totalInvested` and the draft's type total by the draft's amount; every other type's total stays |
| FinancialControl.UpsertPayload | src/components/FinancialControl.tsx:101-105 | as written: with no settings the payload is {user_id, field: value}; with settings it is the stored row itself |
| FinancialControl.UpsertPayloadIgnoresEdit | src/components/FinancialControl.tsx:101-105 | a stored CDI rate of 10.75 edited to 12 is upserted as 10.75 |
| FinancialControl.UpsertPayloadConstantInValue | src/components/FinancialControl.tsx:101-105 | with settings present the as-written payload does not depend on the edited value |
| FinancialControl.WrittenPayloadKeepsRate | src/components/FinancialControl.tsx:101-108 | after the as-written upsert and refetch, the effective CDI rate is what it was |
| FinancialControl.IntendedUpsertPayload | src/components/FinancialControl.tsx:101-105 | with the spread first, the edited field carries the new value, user_id is the user's, and every other stored column is kept; its keys are the stored row's keys plus user_id and the edited field |
| FinancialControl.IntendedPayloadAppliesEdit | src/components/FinancialControl.tsx:101-108 | with the corrected payload, a non-zero edited CDI rate becomes the effective rate and the Selic rate is kept |
| Progress.GlobalProgress | src/components/dashboard/DashboardSummary.tsx:11 | 0 when the total value is not positive; otherwise the p with p × totalValue = totalSaved × 100 |
| Progress.GlobalProgressFull | src/components/dashboard/DashboardSummary.tsx:11 | with a positive total, progress ≥ 100 exactly when saved ≥ total |
| Progress.GlobalProgressMonotone | src/components/dashboard/DashboardSummary.tsx:11 | more savings never lower the percentage |
| Progress.BarWidth | src/components/dashboard/DashboardSummary.tsx:41 | the bar width is never above 100, equals the progress up to 100, and is 100 from there on |
| Progress.Remaining | src/components/dashboard/DashboardSummary.tsx:45 | remaining + saved = total, and remaining is negative exactly when saved exceeds the total |
| Progress.ItemProgress | src/components/ItemCard.tsx:21 | for a non-zero price, p × price = amount_saved × 100 |
| Progress.ItemRemaining | src/components/ItemCard.tsx:22 | remaining + amount_saved = price, unclamped |
| Progress.ItemRemainingIgnoresQuantity | src/components/ItemCard.tsx:22 | the card's remaining amount does not depend on quantity |
| Progress.GoalReached | src/components/ItemCard.tsx:88-91 | "goal reached" is shown exactly when amount_saved ≥ price |
| Progress.GoalReachedIffFullBar | src/components/ItemCard.tsx:83-91 | for a positive price, the goal is reached exactly when the card shows ≥ 100%, and then the bar is full |
| ItemCard.DeleteRequest | src/components/ItemCard.tsx:24-28 | an id is forwarded exactly when the user confirms, and it is this card's id |
| ItemCard.CardDelete | src/components/ItemCard.tsx:24-28 | without confirmation or on error the list is unchanged; when confirmed, the list is what the hook's delete gives: never longer, every survivor an element of the old list, no element with this id left on success, and all others kept |
| ItemCard.ForwardEntry | src/components/ItemCard.tsx:30-32 | the entry goes out with this card's item id and the dialog's amount and description |
| ItemCard.AcceptedEntryCreditsCardItem | src/components/ItemCard.tsx:30-31 | an entry the dialog accepts raises this card's item's savings by exactly the parsed amount, which is a strict increase |
| ItemCard.EditSavesOnlyThisItem | src/components/ItemCard.tsx:130-135 | saving the edit dialog through the hook changes only this card's item |
| ItemCard.TwoEntriesScenario | src/components/ItemCard.tsx:21-22 | a goal of 1000 credited 250 twice has 500 saved, two entries, 50% and 500 remaining |
| ItemCard.HalfwayCard | src/components/ItemCard.tsx:21-22 | a goal of 1000 with 500 saved shows 50% and 500 remaining |
| ItemCard.CardIgnoresQuantity | src/components/ItemCard.tsx:21-22 | three units at 100 with 300 saved show 300%, remaining -200, goal reached |
| EntryForm.Submit | src/components/AddEntryModal.tsx:20-33 | an amount is passed exactly when the parse is a positive number; it is that number; an empty description goes as undefined; accepted clears both fields, rejected keeps them |
| EntryForm.SecondSubmitRefused | src/components/AddEntryModal.tsx:23-31 | after an accepted submit, pressing again on the cleared fields is refused |
| AddItemForm.ApplyEdit | src/components/AddItemModal.tsx:33-74 | each input sets only its own field: name, description and image store the typed or uploaded value; the price input stores 0 exactly for NaN or 0 and the parsed number otherwise; every other field, `amount_saved` included, is kept |
| AddItemForm.ApplyEdits | src/components/AddItemModal.tsx:18-74 | any sequence of inputs keeps the draft's `amount_saved` |
| AddItemForm.Submit | src/components/AddItemModal.tsx:26-31 | the draft is handed on as is and the dialog returns to the initial draft |
| AddItemForm.SubmittedItemStartsEmpty | src/components/AddItemModal.tsx:18-29 | every submitted item has `amount_saved` 0, and the draft is reset afterwards |
| EditItemForm.Load | src/components/EditItemModal.tsx:26-35 | name and price are copied; a null description or image reads as "" |
| EditItemForm.Merge | src/components/EditItemModal.tsx:37-42 | name, description, price and image come from the form; undoing those four gives back the original item, so id, amount saved, quantity, links and timestamps are kept |
| EditItemForm.LoadAfterMerge | src/components/EditItemModal.tsx:26-42 | reopening the dialog on the saved item shows exactly the submitted fields |
| EditItemForm.MergeAfterLoad | src/components/EditItemModal.tsx:26-42 | saving an unedited dialog changes nothing, except that a null description or image becomes "" |
| EditItemForm.ImageUploaded | src/components/EditItemModal.tsx:46-48 | an upload replaces only the image field |
| EditItemForm.SetPrice | src/components/EditItemModal.tsx:87 | the price input stores 0 exactly for NaN or 0 and changes nothing else |

## Findings

| source | as written | input that shows it | evidently intended | confidence | as-written member | corrected member |
|---|---|---|---|---|---|---|
| src/components/FinancialControl.tsx:101-105 | the upsert payload spreads the stored settings after `[field]: value`, so a stored column overrides the edit | settings row with cdi_rate 10.75 exists; the user types 12 in the CDI input; the payload has cdi_rate 10.75 and the rate never changes | the edited field should win over the stored row | high (not executed) | FinancialControl.UpsertPayloadIgnoresEdit | FinancialControl.IntendedPayloadAppliesEdit |
| src/pages/Index.tsx:34-40, 149-153 | the page passes its `handleAddItem` to `AddItemModal`, whose draft has `amount_saved` and `image_url`; the spread gives the new item neither `amountSaved` nor `imageUrl` | the sample list plus one item added through the dialog: `totalSaved` is `770 + undefined`, NaN, and the progress bar reads NaN% | the dialog's saved amount and image should land in the page's `amountSaved` and `imageUrl` | high (not executed) | MockPage.DialogAddMakesTotalsNaN | MockPage.DialogAddKeepsTotals |

`FinancialControl.UpsertPayload` and `FinancialControl.WrittenPayloadKeepsRate` model the code as written. `FinancialControl.IntendedUpsertPayload` is the corrected payload. `MockPage.AddFromDialogAsWritten` and `MockPage.SeedThenDialogAdd` model the page's add as written. `MockPage.AddFromDialog` is the corrected add, with the keys translated by `MockPage.PageDraft`.

## Left out

- Backend I/O: the Supabase queries, `auth.getUser`, storage uploads and `getPublicUrl`. Each is an `Outcome`/`Response` input. The row the backend returns from an insert is not tied to the payload sent, because the backend assigns ids and timestamps.
- The refetch queries themselves. They are I/O. `SettingsAfterUpsert` stands for the settings row read back after an upsert, and `AddInvestmentRaisesTotals` stands for the investments read back after an add.
- FinancialControl.AddInvestmentRaisesTotals: the refetched list is taken to be the new row followed by the current list. That assumes the local list equals the table and that the new row sorts first under `order('created_at', { ascending: false })` (src/components/FinancialControl.tsx:30-38). Another writer or equal timestamps would break the assumption.
- Ids and clocks: `Date.now()` ids and `new Date()` timestamps are inputs. Timestamps are opaque strings or integers.
- `parseFloat` and `parseInt`: their result is an input (`Option`, with NaN as `None`). How text parses is not modelled.
- JavaScript floating point: infinities, `-0`, rounding and `toFixed`/`toLocaleString` formatting are not modelled. Money is an exact `real`.
- Progress.ItemProgress: requires a non-zero price. The card divides without a guard and would show Infinity or NaN.
- Whitespace in `ShoppingList.Blank` is the set `String.prototype.trim` removes: the WhiteSpace and LineTerminator characters of the ECMAScript standard.
- The `|| 0` in the investments reduce: it is modelled as "missing key reads 0". That only differs for a NaN group, which exact reals cannot hold.
- `fetchSettings` treating "no row" (`PGRST116`) as null settings, and the loading flags: I/O and rendering state.
- Authentication (`useAuth`), profile settings, image upload checks, the admin dashboard, and the header, footer and grid components. These are I/O, clock-dependent or pure rendering.
- React rendering, memoisation, toasts and dialog open/close state.
- FinancialControl.AddInvestment, AddItemForm.Submit and EditItemForm.Merge do not model the browser's `required` check on the name inputs (FinancialControl.tsx:206, AddItemModal.tsx:52, EditItemModal.tsx:65), which blocks a submit with an empty name before the handler runs. The model lets an empty name through. Native form validation is browser behaviour, outside the components' code.
- EntryForm.Submit does not model the browser's `required`, `min="0"` and `step="0.01"` checks on the amount input (AddEntryModal.tsx:49-59). The browser blocks, for example, "0.005" before `handleSubmit` runs, but the model accepts any positive parse. The price inputs' `required` is left out in the same way.
- ShoppingList.UpdateItemPrice: the reducer itself accepts any row, bought or not. The page never re-prices a bought row, because the price input carries `disabled={item.is_purchased}` (ShoppingList.tsx:196). That guard lives in the rendering. `ShoppingList.RepriceOpenKeepsPurchased` states what it buys: the purchased total moves only by toggling or deleting.
- Entities.InvestmentType: the table's `type` column is a free `string` (src/integrations/supabase/types.ts:50, 59, 68). The model has only the three `<select>` options and the unselected "". Rows with any other type string are not modelled. `GroupKeys` and `GroupsSumToTotal` are stated over these four keys.
- ItemsStore.AddEntry and the ShoppingList reducers apply each call to the list as it is when the call completes. The source instead writes back the list captured at render time after an `await` (ShoppingList.tsx:51, 67, 84, 99). `handleAddEntry` computes the new `amount_saved` from the captured `items` (useItems.ts:140-142). Two overlapping entries can therefore both be logged while `amount_saved` rises by only one of them, a second source of drift besides the failed write in `ItemsStore.AddEntryDriftWindow`. The model is sequential and has no interleaving of concurrent calls.
- The standalone page renders its camel-case items with `ItemCard`, which reads `amount_saved` and `image_url`. What the cards show for those items is rendering and is not modelled.

=== FILE: add_item_form.dfy ===
/**
 * The add-item dialog: a draft record that the inputs edit field by field,
 * submitted as is and then reset. No input edits `amount_saved`.
 */
module AddItemForm {
  import opened Wrappers
  import opened Entities
  import JsNumbers

  /** The draft the dialog opens with and returns to after each submit. */
  const InitialDraft: NewItem := NewItem("", "", 0.0, 0.0, "")

  /** The edits the dialog's inputs make to the draft. */
  datatype Edit =
    | SetName(name: string)
    | SetDescription(description: string)
    | SetPrice(parsed: Option<real>)   // `parseFloat` of the typed text, NaN as None
    | ImageUploaded(url: string)

  /**
   * One input event: `{...prev, field: value}` for the field that input
   * edits, so every other field is kept. The price input stores
   * `parseFloat(text) || 0`.
   */
  function ApplyEdit(d: NewItem, e: Edit): (r: NewItem)
    ensures r.amount_saved == d.amount_saved
    ensures e.SetName? ==> r == d.(name := e.name)
    ensures e.SetDescription? ==> r == d.(description := e.description)
    ensures e.ImageUploaded? ==> r == d.(image_url := e.url)
    ensures e.SetPrice? ==> r.(price := d.price) == d
    ensures e.SetPrice? ==> (r.price == 0.0 <==> JsNumbers.Falsy(e.parsed))
    ensures e.SetPrice? && !JsNumbers.Falsy(e.parsed) ==> r.price == e.parsed.value
  {
    match e
    case SetName(n) => d.(name := n)
    case SetDescription(s) => d.(description := s)
    case SetPrice(parsed) => d.(price := JsNumbers.OrDefault(parsed, 0.0))
    case ImageUploaded(url) => d.(image_url := url)
  }

  /** A sequence of input events applied in order. */
  function ApplyEdits(d: NewItem, es: seq<Edit>): (r: NewItem)
    ensures r.amount_saved == d.amount_saved
    decreases |es|
  {
    if |es| == 0 then d else ApplyEdits(ApplyEdit(d, es[0]), es[1..])
  }

  /** The outcome of pressing submit: the record handed to `onAdd` and the draft afterwards. */
  datatype Submission = Submission(submitted: NewItem, next: NewItem)

  /** `handleSubmit`: hands the draft on unchanged and resets it to the initial draft. */
  function Submit(d: NewItem): (r: Submission)
    ensures r.submitted == d
    ensures r.next == InitialDraft
  {
    Submission(d, InitialDraft)
  }

  /** Whatever the user types, every item the dialog submits starts with nothing saved. */
  lemma SubmittedItemStartsEmpty(es: seq<Edit>)
    ensures Submit(ApplyEdits(InitialDraft, es)).submitted.amount_saved == 0.0
    ensures Submit(ApplyEdits(InitialDraft, es)).next == InitialDraft
  {
  }
}

=== FILE: collections.dfy ===
/**
 * The array operations the reducers are built from: `reduce` as a sum, `filter`,
 * `map` with a per-element condition, and `find`. Each is defined once here,
 * with the lemmas the component modules use to reason about totals and order.
 */
module Collections {
  import opened Wrappers

  /** `s.reduce((acc, x) => acc + f(x), 0)`: folds from the left, last element added last. */
  function Sum<T>(s: seq<T>, f: T -> real): real
  {
    if |s| == 0 then 0.0 else Sum(s[..|s| - 1], f) + f(s[|s| - 1])
  }

  /** The complement of a predicate. */
  function Not<T>(p: T -> bool): T -> bool
  {
    x => !p(x)
  }

  /** `s.filter(p)`: the elements satisfying `p`, in their original order. */
  function Filter<T>(s: seq<T>, p: T -> bool): (r: seq<T>)
    ensures |r| <= |s|
    ensures forall i :: 0 <= i < |r| ==> r[i] in s && p(r[i])
    ensures forall i :: 0 <= i < |s| && p(s[i]) ==> s[i] in r
  {
    if |s| == 0 then []
    else
      var init := s[..|s| - 1];
      assert s == init + [s[|s| - 1]];
      Filter(init, p) + (if p(s[|s| - 1]) then [s[|s| - 1]] else [])
  }

  /** `s.map(x => p(x) ? g(x) : x)`: rewrites exactly the elements satisfying `p`. */
  function MapWhere<T>(s: seq<T>, p: T -> bool, g: T -> T): (r: seq<T>)
    ensures |r| == |s|
    ensures forall i :: 0 <= i < |s| ==> r[i] == if p(s[i]) then g(s[i]) else s[i]
  {
    seq(|s|, i requires 0 <= i < |s| => if p(s[i]) then g(s[i]) else s[i])
  }

  /** `s.find(p)`: the first element satisfying `p`, if any. */
  function Find<T>(s: seq<T>, p: T -> bool): (r: Option<T>)
    ensures r.None? <==> forall i :: 0 <= i < |s| ==> !p(s[i])
    ensures r.Some? ==> exists i :: 0 <= i < |s| && s[i] == r.value && p(s[i]) && forall j :: 0 <= j < i ==> !p(s[j])
  {
    if |s| == 0 then None
    else if p(s[0]) then Some(s[0])
    else
      var r := Find(s[1..], p);
      assert r.Some? ==> exists i :: 1 <= i < |s| && s[i] == r.value && p(s[i]) && forall j :: 0 <= j < i ==> !p(s[j]) by {
        if r.Some? {
          var i :| 0 <= i < |s[1..]| && s[1..][i] == r.value && p(s[1..][i]) && forall j :: 0 <= j < i ==> !p(s[1..][j]);
          assert forall j :: 1 <= j < i + 1 ==> !p(s[j]) by {
            forall j | 1 <= j < i + 1 ensures !p(s[j]) {
              assert s[j] == s[1..][j - 1];
            }
          }
        }
      }
      r
  }

  /** Sum is additive over concatenation. */
  lemma {:induction false} SumAppend<T>(s: seq<T>, t: seq<T>, f: T -> real)
    ensures Sum(s + t, f) == Sum(s, f) + Sum(t, f)
    decreases |t|
  {
    if |t| == 0 {
      assert s + t == s;
    } else {
      var init := t[..|t| - 1];
      assert (s + t)[..|s + t| - 1] == s + init;
      assert (s + t)[|s + t| - 1] == t[|t| - 1];
      SumAppend(s, init, f);
    }
  }

  /** The sum over one element is that element's value. */
  lemma SumSingleton<T>(x: T, f: T -> real)
    ensures Sum([x], f) == f(x)
  {
    assert [x][..0] == [];
  }

  /** Sum of a list with one element put in front. */
  lemma SumCons<T>(x: T, s: seq<T>, f: T -> real)
    ensures Sum([x] + s, f) == f(x) + Sum(s, f)
  {
    SumAppend([x], s, f);
    SumSingleton(x, f);
  }

  /** `SumNonNegative` as an implication, for callers that cannot assume the premise. */
  lemma SumNonNegativeWhen<T>(s: seq<T>, f: T -> real)
    ensures (forall i :: 0 <= i < |s| ==> f(s[i]) >= 0.0) ==> Sum(s, f) >= 0.0
  {
    if forall i :: 0 <= i < |s| ==> f(s[i]) >= 0.0 {
      SumNonNegative(s, f);
    }
  }

  /** Sum of a list with one element in the middle. */
  lemma SumMiddle<T>(a: seq<T>, x: T, b: seq<T>, f: T -> real)
    ensures Sum(a + [x] + b, f) == Sum(a, f) + f(x) + Sum(b, f)
  {
    SumAppend(a + [x], b, f);
    SumAppend(a, [x], f);
    SumSingleton(x, f);
  }

  /** A sum of non-negative terms is non-negative. */
  lemma {:induction false} SumNonNegative<T>(s: seq<T>, f: T -> real)
    requires forall i :: 0 <= i < |s| ==> f(s[i]) >= 0.0
    ensures Sum(s, f) >= 0.0
    decreases |s|
  {
    if |s| > 0 {
      SumNonNegative(s[..|s| - 1], f);
    }
  }

  /** Filter distributes over concatenation: it keeps the relative order of what it keeps. */
  lemma {:induction false} FilterAppend<T>(s: seq<T>, t: seq<T>, p: T -> bool)
    ensures Filter(s + t, p) == Filter(s, p) + Filter(t, p)
    decreases |t|
  {
    if |t| == 0 {
      assert s + t == s;
    } else {
      var init := t[..|t| - 1];
      assert (s + t)[..|s + t| - 1] == s + init;
      assert (s + t)[|s + t| - 1] == t[|t| - 1];
      FilterAppend(s, init, p);
    }
  }

  /** Filtering a list every element of which passes returns the list itself. */
  lemma {:induction false} FilterAllPass<T>(s: seq<T>, p: T -> bool)
    requires forall i :: 0 <= i < |s| ==> p(s[i])
    ensures Filter(s, p) == s
    decreases |s|
  {
    if |s| > 0 {
      FilterAllPass(s[..|s| - 1], p);
      assert s == s[..|s| - 1] + [s[|s| - 1]];
    }
  }

  /**
   * Two lists of the same length that agree on which positions pass, and
   * agree on every passing element, filter to the same list.
   */
  lemma {:induction false} FilterSamePassing<T>(s: seq<T>, t: seq<T>, p: T -> bool)
    requires |s| == |t|
    requires forall i :: 0 <= i < |s| ==> p(s[i]) == p(t[i])
    requires forall i :: 0 <= i < |s| && p(s[i]) ==> s[i] == t[i]
    ensures Filter(s, p) == Filter(t, p)
    decreases |s|
  {
    if |s| > 0 {
      FilterSamePassing(s[..|s| - 1], t[..|t| - 1], p);
    }
  }

  /** Filter is idempotent. */
  lemma FilterIdempotent<T>(s: seq<T>, p: T -> bool)
    ensures Filter(Filter(s, p), p) == Filter(s, p)
  {
    var r := Filter(s, p);
    assert forall i :: 0 <= i < |r| ==> p(r[i]) by {
      forall i | 0 <= i < |r| ensures p(r[i]) {
        assert r[i] in r;
      }
    }
    FilterAllPass(r, p);
  }

  /** A sum over a list splits into the part satisfying `p` and the rest. */
  lemma {:induction false} SumFilterSplit<T>(s: seq<T>, f: T -> real, p: T -> bool)
    ensures Sum(s, f) == Sum(Filter(s, p), f) + Sum(Filter(s, Not(p)), f)
    decreases |s|
  {
    if |s| > 0 {
      var init := s[..|s| - 1];
      var x := s[|s| - 1];
      SumFilterSplit(init, f, p);
      SumAppend(Filter(init, p), if p(x) then [x] else [], f);
      SumAppend(Filter(init, Not(p)), if Not(p)(x) then [x] else [], f);
      SumSingleton(x, f);
      assert Sum([], f) == 0.0;
    }
  }

  /** Appending one element adds its value to a filtered sum exactly when it passes. */
  lemma SumFilterSnoc<T>(s: seq<T>, x: T, f: T -> real, p: T -> bool)
    ensures Sum(Filter(s + [x], p), f) == Sum(Filter(s, p), f) + (if p(x) then f(x) else 0.0)
  {
    FilterAppend(s, [x], p);
    assert [x][..0] == [];
    assert Filter([x], p) == if p(x) then [x] else [];
    SumAppend(Filter(s, p), Filter([x], p), f);
    SumSingleton(x, f);
  }

  /** A sum only depends on the values of the terms. */
  lemma {:induction false} SumPointwise<T>(s: seq<T>, t: seq<T>, f: T -> real)
    requires |s| == |t|
    requires forall i :: 0 <= i < |s| ==> f(s[i]) == f(t[i])
    ensures Sum(s, f) == Sum(t, f)
    decreases |s|
  {
    if |s| > 0 {
      SumPointwise(s[..|s| - 1], t[..|t| - 1], f);
    }
  }
}

=== FILE: edit_item_form.dfy ===
/**
 * The edit-item dialog: it loads four fields from the item, lets the user
 * change them, and submits `{...item, ...form}`, which overwrites exactly those
 * four fields and keeps the rest of the item.
 */
module EditItemForm {
  import opened Wrappers
  import opened Entities
  import JsNumbers

  /** The four editable fields. */
  datatype Form = Form(name: string, description: string, price: real, image_url: string)

  /** The fields before the item has been loaded. */
  const BlankForm: Form := Form("", "", 0.0, "")

  /** `text || ""` for a nullable text column. */
  function OrEmpty(s: Option<string>): string
  {
    if s.None? then "" else s.value
  }

  /** Loading from the item: name and price copied, null description and image read as "". */
  function Load(item: Item): (f: Form)
    ensures f.name == item.name && f.price == item.price
    ensures item.description.None? ==> f.description == ""
    ensures item.description.Some? ==> f.description == item.description.value
    ensures item.image_url.None? ==> f.image_url == ""
    ensures item.image_url.Some? ==> f.image_url == item.image_url.value
  {
    Form(item.name, OrEmpty(item.description), item.price, OrEmpty(item.image_url))
  }

  /**
   * `{...item, ...formData}`: the four form fields overwrite the item's; id,
   * amount saved, quantity, links, owner and timestamps are kept.
   */
  function Merge(item: Item, f: Form): (r: Item)
    ensures r.name == f.name && r.description == Some(f.description)
    ensures r.price == f.price && r.image_url == Some(f.image_url)
    ensures r.(name := item.name, description := item.description, price := item.price, image_url := item.image_url) == item
  {
    item.(name := f.name, description := Some(f.description), price := f.price, image_url := Some(f.image_url))
  }

  /** Reopening the dialog on the saved item shows exactly the submitted fields. */
  lemma LoadAfterMerge(item: Item, f: Form)
    ensures Load(Merge(item, f)) == f
  {
  }

  /** Saving an unedited dialog is a no-op, except that null description and image become "". */
  lemma MergeAfterLoad(item: Item)
    ensures Merge(item, Load(item)) == item.(description := Some(OrEmpty(item.description)), image_url := Some(OrEmpty(item.image_url)))
    ensures item.description.Some? && item.image_url.Some? ==> Merge(item, Load(item)) == item
  {
  }

  /** An uploaded image replaces only the image field of the form. */
  function ImageUploaded(f: Form, url: string): (r: Form)
    ensures r.image_url == url
    ensures r.(image_url := f.image_url) == f
  {
    f.(image_url := url)
  }

  /** The price input stores `parseFloat(text) || 0`. */
  function SetPrice(f: Form, parsed: Option<real>): (r: Form)
    ensures r.(price := f.price) == f
    ensures r.price == 0.0 <==> JsNumbers.Falsy(parsed)
    ensures !JsNumbers.Falsy(parsed) ==> r.price == parsed.value
  {
    f.(price := JsNumbers.OrDefault(parsed, 0.0))
  }
}

=== FILE: entities.dfy ===
/**
 * Record shapes of the budgeting ledger: the rows of the `items`,
 * `item_entries`, `shopping_list`, `investments` and `financial_settings`
 * tables, and the client-side shapes derived from them.
 */
module Entities {
  import opened Wrappers

  /** Opaque identifier assigned by the backend (a UUID string). */
  type Id = string

  /** A row of `items` as the backend returns it; nullable columns are `Option`s. */
  datatype ItemRow = ItemRow(
    id: Id,
    name: string,
    description: Option<string>,
    price: real,
    quantity: Option<int>,
    amount_saved: real,
    image_url: Option<string>,
    purchase_links: Option<seq<string>>,
    user_id: Option<Id>,
    created_at: string,
    updated_at: string)

  /** A savings goal as the client holds it, after `quantity` and `purchase_links` are defaulted. */
  datatype Item = Item(
    id: Id,
    name: string,
    description: Option<string>,
    price: real,
    quantity: int,
    amount_saved: real,
    image_url: Option<string>,
    purchase_links: seq<string>,
    user_id: Option<Id>,
    created_at: string,
    updated_at: string)

  /** The record the add-item form submits; the backend fills in id and timestamps. */
  datatype NewItem = NewItem(
    name: string,
    description: string,
    price: real,
    amount_saved: real,
    image_url: string)

  /** One contribution as `handleAddEntry` inserts it into `item_entries` (the table's declared row type has no `quantity` column; the insert sends one anyway). */
  datatype ItemEntry = ItemEntry(
    item_id: Id,
    amount: real,
    quantity: int,
    description: Option<string>)

  /** A row of `shopping_list`; the client keeps the row as returned, nulls included. */
  datatype ShoppingItem = ShoppingItem(
    id: Id,
    name: string,
    quantity: Option<int>,
    price: Option<real>,
    is_purchased: Option<bool>,
    user_id: Option<Id>,
    created_at: string,
    updated_at: string)

  /** The `type` column of `investments`; `Unselected` is the empty string the draft starts with. */
  datatype InvestmentType = TesouroDireto | Fiis | RendaFixa | Unselected

  /** A row of `investments`. */
  datatype Investment = Investment(
    id: Id,
    user_id: Id,
    name: string,
    kind: InvestmentType,
    amount: real,
    created_at: string,
    updated_at: string)

  /** The per-user row of `financial_settings`. */
  datatype FinancialSettings = FinancialSettings(
    id: Id,
    user_id: Id,
    cdi_rate: Option<real>,
    selic_rate: Option<real>,
    created_at: string,
    updated_at: string)

  /** No two items of the list share an id (the backend's primary key). */
  predicate UniqueIds(items: seq<Item>)
  {
    forall i, j :: 0 <= i < j < |items| ==> items[i].id != items[j].id
  }

  /** The item list holds an item with this id. */
  predicate HasItem(items: seq<Item>, id: Id)
  {
    exists i :: 0 <= i < |items| && items[i].id == id
  }
}

=== FILE: entry_form.dfy ===
/**
 * The add-entry dialog: it parses the typed amount, refuses NaN, zero and
 * negative values, and otherwise hands the amount and the optional
 * description to its caller and clears both fields.
 */
module EntryForm {
  import opened Wrappers

  /** The dialog's two text fields. */
  datatype Form = Form(amount: string, description: string)

  const EmptyForm: Form := Form("", "")

  /** What the dialog passes to `onAdd`. */
  datatype Submission = Submission(amount: real, description: Option<string>)

  /** The outcome of pressing submit: the call made, if any, and the fields afterwards. */
  datatype SubmitResult = SubmitResult(call: Option<Submission>, form: Form)

  /**
   * `handleSubmit`. `parsed` is `parseFloat(form.amount)`, with NaN as `None`.
   * `!amountNum || amountNum <= 0` rejects NaN, 0 and negative amounts: then
   * nothing is called and the fields stay. Otherwise the amount is passed on,
   * an empty description as undefined, and both fields are cleared.
   */
  function Submit(form: Form, parsed: Option<real>): (r: SubmitResult)
    ensures r.call.Some? <==> parsed.Some? && parsed.value > 0.0
    ensures r.call.Some? ==> r.call.value.amount == parsed.value && r.call.value.amount > 0.0
    ensures r.call.Some? ==> (r.call.value.description.None? <==> form.description == "")
    ensures r.call.Some? && r.call.value.description.Some? ==> r.call.value.description.value == form.description
    ensures r.call.Some? ==> r.form == EmptyForm
    ensures r.call.None? ==> r.form == form
  {
    if parsed.None? || parsed.value == 0.0 || parsed.value <= 0.0 then
      SubmitResult(None, form)
    else
      SubmitResult(Some(Submission(parsed.value, if form.description == "" then None else Some(form.description))), EmptyForm)
  }

  /** Submitting twice without retyping: the second press finds empty fields and so, with `parseFloat("")` NaN, is refused. */
  lemma SecondSubmitRefused(form: Form, parsed: Option<real>)
    requires Submit(form, parsed).call.Some?
    ensures Submit(Submit(form, parsed).form, None).call.None?
    ensures Submit(Submit(form, parsed).form, None).form == EmptyForm
  {
  }
}

=== FILE: financial_control.dfy ===
/**
 * The investments panel: the total invested and its split by type, the
 * yearly yield projection at the CDI rate (10.75% when none is stored), the
 * whole-quota counts of the two simulated real-estate funds, the add-investment
 * form, and the upsert payload built when a rate is edited.
 */
module FinancialControl {
  import opened Wrappers
  import opened Entities
  import opened Collections
  import JsNumbers

  // ---------------------------------------------------------------- totals

  function AmountOf(inv: Investment): real
  {
    inv.amount
  }

  /** `totalInvested`: the sum of the amounts; never negative when no amount is. */
  function TotalInvested(invs: seq<Investment>): (r: real)
    ensures (forall i :: 0 <= i < |invs| ==> invs[i].amount >= 0.0) ==> r >= 0.0
  {
    SumNonNegativeWhen(invs, AmountOf);
    Sum(invs, AmountOf)
  }

  /** Matches the investments of one type. */
  function OfType(t: InvestmentType): Investment -> bool
  {
    (inv: Investment) => inv.kind == t
  }

  /** Reference definition of one group: the amounts of that type, summed. */
  function TypeTotal(invs: seq<Investment>, t: InvestmentType): real
  {
    Sum(Filter(invs, OfType(t)), AmountOf)
  }

  /**
   * `investmentsByType`, as the reduce builds it: for each investment in
   * order, `acc[type] = (acc[type] || 0) + amount`. No investments give no
   * groups, and the latest investment's type always has one.
   */
  function InvestmentsByType(invs: seq<Investment>): (r: map<InvestmentType, real>)
    ensures r == map[] <==> |invs| == 0
    ensures |invs| > 0 ==> invs[|invs| - 1].kind in r
  {
    if |invs| == 0 then map[]
    else
      var acc := InvestmentsByType(invs[..|invs| - 1]);
      var inv := invs[|invs| - 1];
      acc[inv.kind := (if inv.kind in acc then acc[inv.kind] else 0.0) + inv.amount]
  }

  /** Some investment of the list has this type. */
  predicate Occurs(invs: seq<Investment>, t: InvestmentType)
  {
    exists i :: 0 <= i < |invs| && invs[i].kind == t
  }

  /** A type occurs in a list with one more element when it occurs in the prefix or is that element's type. */
  lemma OccursSnoc(init: seq<Investment>, inv: Investment, t: InvestmentType)
    ensures Occurs(init + [inv], t) <==> Occurs(init, t) || inv.kind == t
  {
    var s := init + [inv];
    if Occurs(init, t) {
      var i :| 0 <= i < |init| && init[i].kind == t;
      assert s[i].kind == t;
    }
    if Occurs(s, t) && inv.kind != t {
      var i :| 0 <= i < |s| && s[i].kind == t;
      assert i < |init| && init[i].kind == t;
    }
    assert s[|init|] == inv;
  }

  /** A type has a group exactly when some investment has that type. */
  lemma {:induction false} GroupKeys(invs: seq<Investment>, t: InvestmentType)
    ensures t in InvestmentsByType(invs) <==> Occurs(invs, t)
    decreases |invs|
  {
    if |invs| > 0 {
      var init := invs[..|invs| - 1];
      var inv := invs[|invs| - 1];
      GroupKeys(init, t);
      assert invs == init + [inv];
      OccursSnoc(init, inv, t);
    }
  }

  /** Every group holds its type's total; a type with no group totals 0. */
  lemma {:induction false} GroupValues(invs: seq<Investment>, t: InvestmentType)
    ensures (if t in InvestmentsByType(invs) then InvestmentsByType(invs)[t] else 0.0) == TypeTotal(invs, t)
    decreases |invs|
  {
    if |invs| > 0 {
      var init := invs[..|invs| - 1];
      var inv := invs[|invs| - 1];
      var acc := InvestmentsByType(init);
      GroupValues(init, t);
      assert invs == init + [inv];
      assert InvestmentsByType(invs) == acc[inv.kind := (if inv.kind in acc then acc[inv.kind] else 0.0) + inv.amount];
      TypeTotalSnoc(init, inv, t);
    }
  }

  /** A group's value, 0 for a type with no group. */
  function GroupValue(groups: map<InvestmentType, real>, t: InvestmentType): real
  {
    if t in groups then groups[t] else 0.0
  }

  /** The total over all groups. */
  function GroupsTotal(groups: map<InvestmentType, real>): real
  {
    GroupValue(groups, TesouroDireto) + GroupValue(groups, Fiis)
    + GroupValue(groups, RendaFixa) + GroupValue(groups, Unselected)
  }

  /** The per-type totals add up to the sum of all amounts. */
  lemma {:induction false} TypeTotalsSumToSum(invs: seq<Investment>)
    ensures Sum(invs, AmountOf) == TypeTotal(invs, TesouroDireto) + TypeTotal(invs, Fiis)
                                   + TypeTotal(invs, RendaFixa) + TypeTotal(invs, Unselected)
    decreases |invs|
  {
    if |invs| > 0 {
      var init := invs[..|invs| - 1];
      var inv := invs[|invs| - 1];
      TypeTotalsSumToSum(init);
      assert invs == init + [inv];
      assert Sum(invs, AmountOf) == Sum(init, AmountOf) + inv.amount;
      TypeTotalSnoc(init, inv, TesouroDireto);
      TypeTotalSnoc(init, inv, Fiis);
      TypeTotalSnoc(init, inv, RendaFixa);
      TypeTotalSnoc(init, inv, Unselected);
    }
  }

  /** Appending an investment adds its amount to its own type's total and nothing to the others. */
  lemma TypeTotalSnoc(init: seq<Investment>, inv: Investment, t: InvestmentType)
    ensures TypeTotal(init + [inv], t) == TypeTotal(init, t) + (if inv.kind == t then inv.amount else 0.0)
  {
    SumFilterSnoc(init, inv, AmountOf, OfType(t));
  }

  /** The per-type totals add up to the total invested. */
  lemma {:induction false} TypeTotalsSumToTotal(invs: seq<Investment>)
    ensures TotalInvested(invs) == TypeTotal(invs, TesouroDireto) + TypeTotal(invs, Fiis)
                                   + TypeTotal(invs, RendaFixa) + TypeTotal(invs, Unselected)
  {
    TypeTotalsSumToSum(invs);
  }

  /** The displayed groups add up to the displayed total. */
  lemma GroupsSumToTotal(invs: seq<Investment>)
    ensures GroupsTotal(InvestmentsByType(invs)) == TotalInvested(invs)
  {
    GroupValues(invs, TesouroDireto);
    GroupValues(invs, Fiis);
    GroupValues(invs, RendaFixa);
    GroupValues(invs, Unselected);
    TypeTotalsSumToTotal(invs);
  }

  /** Appending an investment changes only its own type's group, by exactly its amount. */
  lemma AppendChangesOnlyItsGroup(invs: seq<Investment>, x: Investment)
    ensures x.kind in InvestmentsByType(invs + [x])
    ensures GroupValue(InvestmentsByType(invs + [x]), x.kind) == GroupValue(InvestmentsByType(invs), x.kind) + x.amount
    ensures forall t :: t != x.kind ==>
      (t in InvestmentsByType(invs + [x]) <==> t in InvestmentsByType(invs)) &&
      GroupValue(InvestmentsByType(invs + [x]), t) == GroupValue(InvestmentsByType(invs), t)
  {
    assert (invs + [x])[..|invs|] == invs;
  }

  // ---------------------------------------------------------------- yield

  /** The rate shown and used when no usable CDI rate is stored. */
  const DefaultRate: real := 10.75

  /** `calculateRendimento`: the yearly yield of an amount at a percentage rate. */
  function Yield(amount: real, rate: real): (y: real)
    ensures y * 100.0 == amount * rate
  {
    (amount * rate) / 100.0
  }

  /** The yield is zero on nothing, additive in the amount and scales with it. */
  lemma YieldLinear(a: real, b: real, k: real, rate: real)
    ensures Yield(0.0, rate) == 0.0
    ensures Yield(a + b, rate) == Yield(a, rate) + Yield(b, rate)
    ensures Yield(k * a, rate) == k * Yield(a, rate)
  {
  }

  /**
   * `settings?.cdi_rate || 10.75`: the stored CDI rate, unless there are no
   * settings or the stored rate is null or 0.
   */
  function EffectiveCdiRate(settings: Option<FinancialSettings>): (r: real)
    ensures r != 0.0
    ensures settings.Some? && !JsNumbers.Falsy(settings.value.cdi_rate) ==> r == settings.value.cdi_rate.value
    ensures settings.None? || JsNumbers.Falsy(settings.value.cdi_rate) ==> r == DefaultRate
  {
    if settings.None? then DefaultRate else JsNumbers.OrDefault(settings.value.cdi_rate, DefaultRate)
  }

  /** `settings?.selic_rate || 10.75`, the value the Selic input shows. */
  function EffectiveSelicRate(settings: Option<FinancialSettings>): (r: real)
    ensures r != 0.0
    ensures settings.Some? && !JsNumbers.Falsy(settings.value.selic_rate) ==> r == settings.value.selic_rate.value
    ensures settings.None? || JsNumbers.Falsy(settings.value.selic_rate) ==> r == DefaultRate
  {
    if settings.None? then DefaultRate else JsNumbers.OrDefault(settings.value.selic_rate, DefaultRate)
  }

  /** The "estimated yield" card: the yield of the total invested at the effective CDI rate. */
  function ProjectedYield(invs: seq<Investment>, settings: Option<FinancialSettings>): (r: real)
    ensures r * 100.0 == TotalInvested(invs) * EffectiveCdiRate(settings)
    ensures settings.None? ==> r * 100.0 == TotalInvested(invs) * DefaultRate
  {
    Yield(TotalInvested(invs), EffectiveCdiRate(settings))
  }

  /** Appending an investment raises the projection by that investment's own yield. */
  lemma ProjectedYieldAppend(invs: seq<Investment>, x: Investment, settings: Option<FinancialSettings>)
    ensures ProjectedYield(invs + [x], settings) == ProjectedYield(invs, settings) + Yield(x.amount, EffectiveCdiRate(settings))
  {
    SumAppend(invs, [x], AmountOf);
    SumSingleton(x, AmountOf);
    YieldLinear(TotalInvested(invs), x.amount, 1.0, EffectiveCdiRate(settings));
  }

  // ---------------------------------------------------------------- quotas

  /** The amount the fund simulation invests. */
  const Budget: real := 1000.0

  /** `Math.floor(1000 / price)`: whole quotas that 1000 buys. */
  function QuotaCount(price: real): (q: int)
    requires price > 0.0
    ensures q >= 0
    ensures q as real * price <= Budget < (q + 1) as real * price
  {
    var x := Budget / price;
    var q := x.Floor;
    assert q as real <= x < q as real + 1.0;
    assert x * price == Budget;
    assert q as real * price <= x * price;
    assert x * price < (q as real + 1.0) * price;
    q
  }

  /** One of the simulated real-estate funds. */
  datatype Fund = Fund(code: string, price: real, monthlyDividend: real, annualYield: real)

  /** The two funds the simulation tab lists. */
  const FixedFunds: seq<Fund> := [Fund("CTPS11", 95.50, 0.95, 11.9), Fund("MXRF11", 9.80, 0.08, 9.8)]

  /**
   * The monthly income shown for a fund: whole quotas times the monthly
   * dividend. With a positive dividend it is at most what the whole budget
   * would earn pro rata, and less than one quota's dividend short of it.
   */
  function MonthlyIncome(f: Fund): (r: real)
    requires f.price > 0.0
    ensures f.monthlyDividend >= 0.0 ==> r * f.price <= Budget * f.monthlyDividend
    ensures f.monthlyDividend > 0.0 ==> (Budget - f.price) * f.monthlyDividend < r * f.price
  {
    var q := QuotaCount(f.price) as real;
    if f.monthlyDividend > 0.0 then
      assert q * f.price <= Budget && Budget - f.price < q * f.price;
      assert q * f.price * f.monthlyDividend <= Budget * f.monthlyDividend;
      assert (Budget - f.price) * f.monthlyDividend < q * f.price * f.monthlyDividend;
      q * f.monthlyDividend
    else
      q * f.monthlyDividend
  }

  /** 1000 buys 10 CTPS11 quotas (9.50 a month) and 102 MXRF11 quotas (8.16 a month). */
  lemma FixedFundFigures()
    ensures QuotaCount(FixedFunds[0].price) == 10 && MonthlyIncome(FixedFunds[0]) == 9.5
    ensures QuotaCount(FixedFunds[1].price) == 102 && MonthlyIncome(FixedFunds[1]) == 8.16
  {
  }

  // ---------------------------------------------------------------- adding

  /** The add-investment form. */
  datatype InvestmentDraft = InvestmentDraft(name: string, kind: InvestmentType, amount: real)

  /** The form the panel starts with and returns to after an add. */
  const EmptyInvestmentDraft: InvestmentDraft := InvestmentDraft("", Unselected, 0.0)

  /** The amount input stores `parseFloat(text) || 0`. */
  function SetDraftAmount(d: InvestmentDraft, parsed: Option<real>): (r: InvestmentDraft)
    ensures r.(amount := d.amount) == d
    ensures r.amount == 0.0 <==> JsNumbers.Falsy(parsed)
    ensures !JsNumbers.Falsy(parsed) ==> r.amount == parsed.value
  {
    d.(amount := JsNumbers.OrDefault(parsed, 0.0))
  }

  /** The row sent to `investments`. */
  datatype InvestmentInsert = InvestmentInsert(user_id: Id, name: string, kind: InvestmentType, amount: real)

  /** The outcome of a submit: the row inserted, if any, and the form afterwards. */
  datatype AddResult = AddResult(inserted: Option<InvestmentInsert>, draft: InvestmentDraft)

  /**
   * `handleAddInvestment`: with no signed-in user nothing is sent and the
   * form stays; otherwise the form is inserted under the user's id, and on
   * success the form is reset (the list is then fetched again).
   */
  function AddInvestment(d: InvestmentDraft, user: Option<Id>, status: Outcome): (r: AddResult)
    ensures user.None? || status.Failure? ==> r.inserted.None? && r.draft == d
    ensures user.Some? && status.Success? ==>
      r.inserted == Some(InvestmentInsert(user.value, d.name, d.kind, d.amount)) && r.draft == EmptyInvestmentDraft
  {
    if user.None? || status.Failure? then AddResult(None, d)
    else AddResult(Some(InvestmentInsert(user.value, d.name, d.kind, d.amount)), EmptyInvestmentDraft)
  }

  /** The row the refetch returns for an insert: the backend adds the id and the timestamps. */
  function StoredInvestment(ins: InvestmentInsert, id: Id, createdAt: string, updatedAt: string): Investment
  {
    Investment(id, ins.user_id, ins.name, ins.kind, ins.amount, createdAt, updatedAt)
  }

  /** Putting one investment in front raises its type's total by its amount and leaves the other types' totals alone. */
  lemma {:induction false} TypeTotalCons(x: Investment, invs: seq<Investment>, t: InvestmentType)
    ensures TypeTotal([x] + invs, t) == TypeTotal(invs, t) + (if x.kind == t then x.amount else 0.0)
  {
    FilterAppend([x], invs, OfType(t));
    assert [x][..0] == [];
    assert Filter([x], OfType(t)) == if x.kind == t then [x] else [];
    if x.kind == t {
      SumCons(x, Filter(invs, OfType(t)), AmountOf);
    } else {
      assert [] + Filter(invs, OfType(t)) == Filter(invs, OfType(t));
    }
  }

  /**
   * A successful add, followed by the refetch (newest first), raises the
   * total and the draft's type total by the draft's amount; no other type's
   * total moves.
   */
  lemma AddInvestmentRaisesTotals(invs: seq<Investment>, d: InvestmentDraft, user: Id, id: Id, createdAt: string, updatedAt: string)
    ensures AddInvestment(d, Some(user), Success).inserted.Some?
    ensures var after := [StoredInvestment(AddInvestment(d, Some(user), Success).inserted.value, id, createdAt, updatedAt)] + invs;
      && TotalInvested(after) == TotalInvested(invs) + d.amount
      && TypeTotal(after, d.kind) == TypeTotal(invs, d.kind) + d.amount
      && forall t :: t != d.kind ==> TypeTotal(after, t) == TypeTotal(invs, t)
  {
    var x := StoredInvestment(AddInvestment(d, Some(user), Success).inserted.value, id, createdAt, updatedAt);
    SumCons(x, invs, AmountOf);
    forall t: InvestmentType ensures TypeTotal([x] + invs, t) == TypeTotal(invs, t) + (if x.kind == t then x.amount else 0.0) {
      TypeTotalCons(x, invs, t);
    }
  }

  // ---------------------------------------------------------------- settings

  /** A JavaScript value in an object literal. */
  datatype JsValue = JStr(s: string) | JNum(n: real) | JNull

  /** A JavaScript object: keys to values; a missing key is an absent property. */
  type JsObject = map<string, JsValue>

  /** The two editable settings fields. */
  datatype SettingsField = CdiRate | SelicRate

  function FieldKey(f: SettingsField): string
  {
    match f
    case CdiRate => "cdi_rate"
    case SelicRate => "selic_rate"
  }

  function NumberOrNull(x: Option<real>): JsValue
  {
    if x.None? then JNull else JNum(x.value)
  }

  /** The settings row as an object, every column present. */
  function SettingsObject(s: FinancialSettings): JsObject
  {
    map["id" := JStr(s.id), "user_id" := JStr(s.user_id),
        "cdi_rate" := NumberOrNull(s.cdi_rate), "selic_rate" := NumberOrNull(s.selic_rate),
        "created_at" := JStr(s.created_at), "updated_at" := JStr(s.updated_at)]
  }

  /** `settings || {}` as an object. */
  function StoredObject(settings: Option<FinancialSettings>): JsObject
  {
    if settings.None? then map[] else SettingsObject(settings.value)
  }

  /**
   * The payload of `updateSettings` as written: `{ user_id, [field]: value,
   * ...(settings || {}) }`. Spreading is a right-biased union, so stored
   * columns override the edited one.
   */
  function UpsertPayload(userId: Id, field: SettingsField, value: real, settings: Option<FinancialSettings>): (p: JsObject)
    ensures FieldKey(field) in p && "user_id" in p
    ensures settings.None? ==> p == map["user_id" := JStr(userId), FieldKey(field) := JNum(value)]
    ensures settings.Some? ==> p == SettingsObject(settings.value)
  {
    map["user_id" := JStr(userId)][FieldKey(field) := JNum(value)] + StoredObject(settings)
  }

  /**
   * Once a settings row exists, the payload carries the stored rate, not the
   * edited one: a stored CDI rate of 10.75 edited to 12 is upserted as 10.75.
   */
  lemma UpsertPayloadIgnoresEdit()
    ensures var stored := FinancialSettings("s1", "u1", Some(10.75), None, "t0", "t0");
      UpsertPayload("u1", CdiRate, 12.0, Some(stored))["cdi_rate"] == JNum(10.75)
  {
  }

  /** With settings present, the as-written payload does not depend on the edited value at all. */
  lemma UpsertPayloadConstantInValue(userId: Id, field: SettingsField, v1: real, v2: real, s: FinancialSettings)
    ensures UpsertPayload(userId, field, v1, Some(s)) == UpsertPayload(userId, field, v2, Some(s))
  {
  }

  /** The payload with the spread moved first, so that the edited field wins. */
  function IntendedUpsertPayload(userId: Id, field: SettingsField, value: real, settings: Option<FinancialSettings>): (p: JsObject)
    ensures FieldKey(field) in p && p[FieldKey(field)] == JNum(value)
    ensures forall k :: k in StoredObject(settings) && k != FieldKey(field) && k != "user_id" ==>
      k in p && p[k] == StoredObject(settings)[k]
    ensures "user_id" in p && p["user_id"] == JStr(userId)
    ensures p.Keys == StoredObject(settings).Keys + {"user_id", FieldKey(field)}
  {
    StoredObject(settings)["user_id" := JStr(userId)][FieldKey(field) := JNum(value)]
  }

  /** The settings the panel fetches back after an upsert of this payload over a stored row. */
  function SettingsAfterUpsert(stored: FinancialSettings, p: JsObject): FinancialSettings
  {
    var cdi := if "cdi_rate" in p && p["cdi_rate"].JNum? then Some(p["cdi_rate"].n)
               else if "cdi_rate" in p && p["cdi_rate"].JNull? then None else stored.cdi_rate;
    var selic := if "selic_rate" in p && p["selic_rate"].JNum? then Some(p["selic_rate"].n)
                 else if "selic_rate" in p && p["selic_rate"].JNull? then None else stored.selic_rate;
    stored.(cdi_rate := cdi, selic_rate := selic)
  }

  /**
   * With the intended payload, editing the CDI rate to a non-zero value makes
   * that value the effective rate, and the Selic rate is kept.
   */
  lemma IntendedPayloadAppliesEdit(userId: Id, value: real, s: FinancialSettings)
    requires value != 0.0
    ensures var after := SettingsAfterUpsert(s, IntendedUpsertPayload(userId, CdiRate, value, Some(s)));
      EffectiveCdiRate(Some(after)) == value && after.selic_rate == s.selic_rate
  {
    var p := IntendedUpsertPayload(userId, CdiRate, value, Some(s));
    assert p["cdi_rate"] == JNum(value);
    assert "selic_rate" in StoredObject(Some(s));
    assert p["selic_rate"] == NumberOrNull(s.selic_rate);
  }

  /** With the payload as written, editing the rate over a stored row leaves the effective rate as it was. */
  lemma WrittenPayloadKeepsRate(userId: Id, value: real, s: FinancialSettings)
    ensures var after := SettingsAfterUpsert(s, UpsertPayload(userId, CdiRate, value, Some(s)));
      EffectiveCdiRate(Some(after)) == EffectiveCdiRate(Some(s))
  {
  }
}

=== FILE: item_card.dfy ===
/**
 * The item card: it forwards a confirmed delete and the add-entry dialog's
 * submission to the hook, tagged with its own item's id, and passes the edit
 * dialog's merged record to the hook's update.
 */
module ItemCard {
  import opened Wrappers
  import opened Entities
  import ItemsStore
  import EntryForm
  import EditItemForm
  import Progress

  /** `handleDelete`: the id goes to `onDelete` only when the user confirms the prompt. */
  function DeleteRequest(item: Item, confirmed: bool): (r: Option<Id>)
    ensures r.Some? <==> confirmed
    ensures r.Some? ==> r.value == item.id
  {
    if confirmed then Some(item.id) else None
  }

  /** The delete button's effect on the list held by the hook. */
  function CardDelete(items: seq<Item>, item: Item, confirmed: bool, status: Outcome): (r: seq<Item>)
    ensures !confirmed || status.Failure? ==> r == items
    ensures confirmed && status.Success? ==> forall i :: 0 <= i < |r| ==> r[i].id != item.id
    ensures forall i :: 0 <= i < |items| && items[i].id != item.id ==> items[i] in r
    ensures |r| <= |items| && forall i :: 0 <= i < |r| ==> r[i] in items
    ensures confirmed ==> r == ItemsStore.DeleteItem(items, item.id, status)
  {
    match DeleteRequest(item, confirmed)
    case None => items
    case Some(id) => ItemsStore.DeleteItem(items, id, status)
  }

  /** The arguments the card passes to `onAddEntry`. */
  datatype EntryRequest = EntryRequest(itemId: Id, amount: real, description: Option<string>)

  /** `handleAddEntry`: the dialog's amount and description, tagged with this card's item id. */
  function ForwardEntry(item: Item, s: EntryForm.Submission): (r: EntryRequest)
    ensures r.itemId == item.id
    ensures r.amount == s.amount && r.description == s.description
  {
    EntryRequest(item.id, s.amount, s.description)
  }

  /**
   * From the dialog to the store: an entry the dialog accepts on a card
   * raises that card's item's savings by exactly the parsed amount, which is
   * positive.
   */
  lemma AcceptedEntryCreditsCardItem(l: ItemsStore.Ledger, k: nat, form: EntryForm.Form,
                                     parsed: Option<real>, quantity: int)
    requires UniqueIds(l.items)
    requires k < |l.items|
    requires EntryForm.Submit(form, parsed).call.Some?
    ensures var req := ForwardEntry(l.items[k], EntryForm.Submit(form, parsed).call.value);
      var r := ItemsStore.AddEntry(l, req.itemId, req.amount, quantity, req.description, Success, Success);
      && ItemsStore.Saved(r.items, l.items[k].id) == ItemsStore.Saved(l.items, l.items[k].id) + parsed.value
      && ItemsStore.Saved(r.items, l.items[k].id) > ItemsStore.Saved(l.items, l.items[k].id)
  {
    var req := ForwardEntry(l.items[k], EntryForm.Submit(form, parsed).call.value);
    ItemsStore.AddEntryCredits(l, k, req.amount, quantity, req.description);
  }

  /**
   * From the edit dialog to the store: saving changes only this card's item,
   * and only its four form fields.
   */
  lemma EditSavesOnlyThisItem(items: seq<Item>, k: nat, f: EditItemForm.Form)
    requires UniqueIds(items)
    requires k < |items|
    ensures var r := ItemsStore.UpdateItem(items, EditItemForm.Merge(items[k], f), Success);
      && r[k] == EditItemForm.Merge(items[k], f)
      && forall i :: 0 <= i < |items| && i != k ==> r[i] == items[i]
  {
  }

  /**
   * A goal of 1000 with nothing saved, credited 250 twice from its card:
   * 500 saved, the card shows 50% and 500 remaining.
   */
  lemma TwoEntriesScenario(item: Item, quantity: int)
    requires item.price == 1000.0 && item.amount_saved == 0.0
    ensures var l := ItemsStore.Ledger([item], []);
      var l1 := ItemsStore.AddEntry(l, item.id, 250.0, quantity, None, Success, Success);
      var l2 := ItemsStore.AddEntry(l1, item.id, 250.0, quantity, None, Success, Success);
      && l2.items[0].amount_saved == 500.0
      && |l2.entries| == 2
      && Progress.ItemProgress(l2.items[0]) == 50.0
      && Progress.ItemRemaining(l2.items[0]) == 500.0
  {
    var l := ItemsStore.Ledger([item], []);
    ItemsStore.AddEntryCreditsItem(l, 0, 250.0, quantity, None);
    var l1 := ItemsStore.AddEntry(l, item.id, 250.0, quantity, None, Success, Success);
    assert l1.items[0] == item.(amount_saved := 250.0);
    assert l1.items == [item.(amount_saved := 250.0)];
    ItemsStore.AddEntryCreditsItem(l1, 0, 250.0, quantity, None);
    var l2 := ItemsStore.AddEntry(l1, item.id, 250.0, quantity, None, Success, Success);
    assert l2.items[0] == item.(amount_saved := 500.0);
    HalfwayCard(l2.items[0]);
  }

  /** A goal of 1000 with 500 saved shows 50% and 500 remaining. */
  lemma HalfwayCard(item: Item)
    requires item.price == 1000.0 && item.amount_saved == 500.0
    ensures Progress.ItemProgress(item) == 50.0
    ensures Progress.ItemRemaining(item) == 500.0
  {
    assert Progress.ItemProgress(item) * 1000.0 == 50000.0;
  }

  /**
   * The card measures against the unit price, not price times quantity: three
   * units at 100 with 300 saved show 300% and a remaining of -200.
   */
  lemma CardIgnoresQuantity(item: Item)
    requires item.price == 100.0 && item.quantity == 3 && item.amount_saved == 300.0
    ensures Progress.ItemProgress(item) == 300.0
    ensures Progress.ItemRemaining(item) == -200.0
    ensures Progress.GoalReached(item)
  {
  }
}

=== FILE: items_store.dfy ===
/**
 * The item collection kept by the `useItems` hook: fetched rows are defaulted,
 * and every mutation is applied to the local list only after the backend call
 * it depends on has succeeded. Backend calls appear as `Outcome`/`Response`
 * inputs. The `item_entries` table the hook appends to is kept beside the
 * list as the entry log, so the gap between the two can be stated.
 */
module ItemsStore {
  import opened Wrappers
  import opened Entities
  import opened Collections
  import JsNumbers

  /** Matches the items carrying this id. */
  function IdIs(id: Id): Item -> bool
  {
    (it: Item) => it.id == id
  }

  /** The row an item is stored as, with every nullable column filled. */
  function ToRow(it: Item): ItemRow
  {
    ItemRow(it.id, it.name, it.description, it.price, Some(it.quantity), it.amount_saved,
            it.image_url, Some(it.purchase_links), it.user_id, it.created_at, it.updated_at)
  }

  /**
   * Client defaulting of a fetched or inserted row: a null or zero quantity
   * becomes 1, null purchase links become the empty list, every other column
   * is copied.
   */
  function Normalize(row: ItemRow): (it: Item)
    ensures it.quantity != 0
    ensures row.quantity.None? ==> it.quantity == 1
    ensures row.quantity.Some? ==> it.quantity == if row.quantity.value == 0 then 1 else row.quantity.value
    ensures row.purchase_links.None? ==> it.purchase_links == []
    ensures row.purchase_links.Some? ==> it.purchase_links == row.purchase_links.value
    ensures ToRow(it).(quantity := row.quantity, purchase_links := row.purchase_links) == row
  {
    Item(row.id, row.name, row.description, row.price, JsNumbers.OrDefaultInt(row.quantity, 1),
         row.amount_saved, row.image_url,
         if row.purchase_links.None? then [] else row.purchase_links.value,
         row.user_id, row.created_at, row.updated_at)
  }

  /** An item whose quantity is not zero survives a store-and-fetch round trip unchanged. */
  lemma NormalizeRoundTrip(it: Item)
    requires it.quantity != 0
    ensures Normalize(ToRow(it)) == it
  {
  }

  /** Defaulting twice is defaulting once. */
  lemma NormalizeIdempotent(row: ItemRow)
    ensures Normalize(ToRow(Normalize(row))) == Normalize(row)
  {
    NormalizeRoundTrip(Normalize(row));
  }

  /**
   * `fetchItems`: on success the list becomes the fetched rows (newest first,
   * as the query orders them), each defaulted; `data` null reads as no rows.
   * On error the list is left as it was.
   */
  function FetchItems(current: seq<Item>, response: Response<Option<seq<ItemRow>>>): (r: seq<Item>)
    ensures response.Err? ==> r == current
    ensures response.Ok? && response.data.None? ==> r == []
    ensures response.Ok? && response.data.Some? ==>
      |r| == |response.data.value| &&
      forall i :: 0 <= i < |r| ==> r[i] == Normalize(response.data.value[i])
  {
    match response
    case Err => current
    case Ok(data) =>
      var rows := if data.None? then [] else data.value;
      seq(|rows|, i requires 0 <= i < |rows| => Normalize(rows[i]))
  }

  /**
   * `handleAddItem`: with no signed-in user the call is refused before any
   * request; otherwise the row the backend returns is defaulted and put at
   * the head of the list.
   */
  function AddItem(items: seq<Item>, user: Option<Id>, response: Response<ItemRow>): (r: seq<Item>)
    ensures user.None? || response.Err? ==> r == items
    ensures user.Some? && response.Ok? ==>
      |r| == |items| + 1 && r[0] == Normalize(response.data) && r[1..] == items
  {
    if user.None? then items
    else match response
      case Err => items
      case Ok(row) => [Normalize(row)] + items
  }

  /** Adding an item whose id is new keeps the ids unique. */
  lemma AddItemKeepsIdsUnique(items: seq<Item>, user: Option<Id>, response: Response<ItemRow>)
    requires UniqueIds(items)
    requires response.Ok? ==> !HasItem(items, response.data.id)
    ensures UniqueIds(AddItem(items, user, response))
  {
    var r := AddItem(items, user, response);
    if user.Some? && response.Ok? {
      forall i, j | 0 <= i < j < |r| ensures r[i].id != r[j].id {
        assert r[j] == items[j - 1];
        if i > 0 {
          assert r[i] == items[i - 1];
        }
      }
    }
  }

  /**
   * `handleUpdateItem`: on success every element carrying the updated id is
   * replaced by the updated item; nothing else moves or changes.
   */
  function UpdateItem(items: seq<Item>, updated: Item, status: Outcome): (r: seq<Item>)
    ensures status.Failure? ==> r == items
    ensures |r| == |items|
    ensures forall i :: 0 <= i < |items| ==> r[i].id == items[i].id
    ensures forall i :: 0 <= i < |items| && items[i].id != updated.id ==> r[i] == items[i]
    ensures status.Success? ==> forall i :: 0 <= i < |items| && items[i].id == updated.id ==> r[i] == updated
    ensures !HasItem(items, updated.id) ==> r == items
  {
    if status.Failure? then items else MapWhere(items, IdIs(updated.id), _ => updated)
  }

  /** After a successful update, looking the id up finds the updated item. */
  lemma UpdateThenFind(items: seq<Item>, updated: Item)
    requires HasItem(items, updated.id)
    ensures Find(UpdateItem(items, updated, Success), IdIs(updated.id)) == Some(updated)
  {
    var r := UpdateItem(items, updated, Success);
    assert HasItem(r, updated.id);
    var k :| 0 <= k < |r| && r[k].id == updated.id;
    assert IdIs(updated.id)(r[k]);
  }

  /** Updating the same id twice leaves only the second update. */
  lemma UpdateTwiceLastWins(items: seq<Item>, first: Item, second: Item)
    requires first.id == second.id
    ensures UpdateItem(UpdateItem(items, first, Success), second, Success) == UpdateItem(items, second, Success)
  {
  }

  /**
   * `handleDeleteItem`: on success the list keeps exactly the elements whose
   * id differs, in their original order.
   */
  function DeleteItem(items: seq<Item>, id: Id, status: Outcome): (r: seq<Item>)
    ensures status.Failure? ==> r == items
    ensures |r| <= |items|
    ensures status.Success? ==> forall i :: 0 <= i < |r| ==> r[i].id != id && r[i] in items
    ensures forall i :: 0 <= i < |items| && items[i].id != id ==> items[i] in r
    ensures !HasItem(items, id) ==> r == items
  {
    if status.Failure? then items
    else
      if !HasItem(items, id) then
        FilterAllPass(items, Not(IdIs(id)));
        Filter(items, Not(IdIs(id)))
      else
        Filter(items, Not(IdIs(id)))
  }

  /** Deleting from a concatenation deletes from each part: the order of what remains is kept. */
  lemma DeleteKeepsOrder(a: seq<Item>, b: seq<Item>, id: Id)
    ensures DeleteItem(a + b, id, Success) == DeleteItem(a, id, Success) + DeleteItem(b, id, Success)
  {
    FilterAppend(a, b, Not(IdIs(id)));
  }

  /** Deleting an item whose id occurs nowhere else removes just that item and closes the gap. */
  lemma {:induction false} DeleteRemovesExactlyOne(a: seq<Item>, x: Item, b: seq<Item>)
    requires !HasItem(a, x.id) && !HasItem(b, x.id)
    ensures DeleteItem(a + [x] + b, x.id, Success) == a + b
  {
    var keep := Not(IdIs(x.id));
    FilterAppend(a + [x], b, keep);
    FilterAppend(a, [x], keep);
    KeepAllWhenAbsent(a, x.id);
    KeepAllWhenAbsent(b, x.id);
    FilterDropsOnlyMatch(x);
    assert Filter(a + [x], keep) == a + [];
    assert a + [] == a;
    assert Filter(a + [x] + b, keep) == a + b;
    assert DeleteItem(a + [x] + b, x.id, Success) == Filter(a + [x] + b, keep);
  }

  /** A filter by another id keeps a list that lacks the id whole. */
  lemma KeepAllWhenAbsent(items: seq<Item>, id: Id)
    requires !HasItem(items, id)
    ensures Filter(items, Not(IdIs(id))) == items
  {
    FilterAllPass(items, Not(IdIs(id)));
  }

  /** The filter by an element's own id drops it. */
  lemma FilterDropsOnlyMatch(x: Item)
    ensures Filter([x], Not(IdIs(x.id))) == []
  {
    assert [x][..0] == [];
  }

  /** Deleting twice is deleting once. */
  lemma DeleteIdempotent(items: seq<Item>, id: Id)
    ensures DeleteItem(DeleteItem(items, id, Success), id, Success) == DeleteItem(items, id, Success)
  {
    FilterIdempotent(items, Not(IdIs(id)));
  }

  /** The client's item list together with the remote entry log the hook appends to. */
  datatype Ledger = Ledger(items: seq<Item>, entries: seq<ItemEntry>)

  /** Matches the entries recorded against this item. */
  function EntryFor(id: Id): ItemEntry -> bool
  {
    (e: ItemEntry) => e.item_id == id
  }

  function EntryAmount(e: ItemEntry): real
  {
    e.amount
  }

  /** The amount saved of the first item with this id, as `items.find` reads it (0 if none). */
  function Saved(items: seq<Item>, id: Id): (r: real)
    ensures !HasItem(items, id) ==> r == 0.0
    ensures HasItem(items, id) ==> exists k :: 0 <= k < |items| && items[k].id == id && r == items[k].amount_saved
                                             && forall j :: 0 <= j < k ==> items[j].id != id
  {
    match Find(items, IdIs(id))
    case None => 0.0
    case Some(it) => it.amount_saved
  }

  /** The total of the entries logged against this item: 0 with none, and never negative when no amount is. */
  function Logged(entries: seq<ItemEntry>, id: Id): (r: real)
    ensures (forall i :: 0 <= i < |entries| ==> entries[i].item_id != id) ==> r == 0.0
    ensures (forall i :: 0 <= i < |entries| ==> entries[i].amount >= 0.0) ==> r >= 0.0
  {
    var logged := Filter(entries, EntryFor(id));
    SumNonNegativeWhen(logged, EntryAmount);
    Sum(logged, EntryAmount)
  }

  /**
   * `handleAddEntry`: insert the entry; if that fails nothing changes. Then
   * look the item up; if it is absent the entry stays logged and the list is
   * untouched. Otherwise write `amount_saved + amount`; if that write fails the
   * entry stays logged but the list is untouched; on success every element
   * with the id gets the new total.
   */
  function AddEntry(l: Ledger, itemId: Id, amount: real, quantity: int, description: Option<string>,
                    insert: Outcome, update: Outcome): (r: Ledger)
    ensures insert.Failure? ==> r == l
    ensures insert.Success? ==> r.entries == l.entries + [ItemEntry(itemId, amount, quantity, description)]
    ensures !HasItem(l.items, itemId) || update.Failure? ==> r.items == l.items
    ensures |r.items| == |l.items|
    ensures forall i :: 0 <= i < |l.items| && l.items[i].id != itemId ==> r.items[i] == l.items[i]
    ensures forall i :: 0 <= i < |l.items| ==> r.items[i].(amount_saved := l.items[i].amount_saved) == l.items[i]
  {
    if insert.Failure? then l
    else
      var entries := l.entries + [ItemEntry(itemId, amount, quantity, description)];
      match Find(l.items, IdIs(itemId))
      case None => Ledger(l.items, entries)
      case Some(item) =>
        if update.Failure? then Ledger(l.items, entries)
        else
          var newAmountSaved := item.amount_saved + amount;
          Ledger(MapWhere(l.items, IdIs(itemId), (i: Item) => i.(amount_saved := newAmountSaved)), entries)
  }

  /** With unique ids, `find` returns the one item carrying the id. */
  lemma FindUnique(items: seq<Item>, k: nat)
    requires UniqueIds(items)
    requires k < |items|
    ensures Find(items, IdIs(items[k].id)) == Some(items[k])
  {
    var r := Find(items, IdIs(items[k].id));
    assert IdIs(items[k].id)(items[k]);
    var i :| 0 <= i < |items| && items[i] == r.value && IdIs(items[k].id)(items[i]);
    assert items[i].id == items[k].id;
  }

  /** A fully successful entry puts `amount_saved + amount` on the item, whatever the entry's quantity; its other fields stay. */
  lemma AddEntryCreditsItem(l: Ledger, k: nat, amount: real, quantity: int, description: Option<string>)
    requires UniqueIds(l.items)
    requires k < |l.items|
    ensures AddEntry(l, l.items[k].id, amount, quantity, description, Success, Success).items[k]
         == l.items[k].(amount_saved := l.items[k].amount_saved + amount)
  {
    FindUnique(l.items, k);
  }

  /**
   * A fully successful entry credits the item with exactly `amount`, whatever
   * the entry's quantity, and grows the item's logged total by the same
   * amount; the item's other fields do not change.
   */
  lemma AddEntryCredits(l: Ledger, k: nat, amount: real, quantity: int, description: Option<string>)
    requires UniqueIds(l.items)
    requires k < |l.items|
    ensures var r := AddEntry(l, l.items[k].id, amount, quantity, description, Success, Success);
      && r.items[k] == l.items[k].(amount_saved := l.items[k].amount_saved + amount)
      && Saved(r.items, l.items[k].id) == Saved(l.items, l.items[k].id) + amount
      && Logged(r.entries, l.items[k].id) == Logged(l.entries, l.items[k].id) + amount
  {
    var id := l.items[k].id;
    var r := AddEntry(l, id, amount, quantity, description, Success, Success);
    AddEntryCreditsItem(l, k, amount, quantity, description);
    FindUnique(l.items, k);
    assert UniqueIds(r.items) by {
      forall i, j | 0 <= i < j < |r.items| ensures r.items[i].id != r.items[j].id {
        assert r.items[i].id == l.items[i].id && r.items[j].id == l.items[j].id;
      }
    }
    FindUnique(r.items, k);
    SumFilterSnoc(l.entries, ItemEntry(id, amount, quantity, description), EntryAmount, EntryFor(id));
  }

  /**
   * The drift window: when the entry insert succeeds but the aggregate write
   * fails, the log has grown by the amount while `amount_saved` is unchanged.
   */
  lemma AddEntryDriftWindow(l: Ledger, itemId: Id, amount: real, quantity: int, description: Option<string>)
    ensures var r := AddEntry(l, itemId, amount, quantity, description, Success, Failure);
      && r.items == l.items
      && |r.entries| == |l.entries| + 1
      && Logged(r.entries, itemId) - Saved(r.items, itemId) == Logged(l.entries, itemId) - Saved(l.items, itemId) + amount
  {
    SumFilterSnoc(l.entries, ItemEntry(itemId, amount, quantity, description), EntryAmount, EntryFor(itemId));
  }

  /** An entry for one item leaves every other item's saved and logged totals alone. */
  lemma AddEntryLeavesOthers(l: Ledger, itemId: Id, other: Id, amount: real, quantity: int,
                             description: Option<string>, insert: Outcome, update: Outcome)
    requires other != itemId
    ensures var r := AddEntry(l, itemId, amount, quantity, description, insert, update);
      Saved(r.items, other) == Saved(l.items, other) && Logged(r.entries, other) == Logged(l.entries, other)
  {
    var r := AddEntry(l, itemId, amount, quantity, description, insert, update);
    if insert.Success? {
      SumFilterSnoc(l.entries, ItemEntry(itemId, amount, quantity, description), EntryAmount, EntryFor(other));
    }
    FindSameWhereMatching(l.items, r.items, IdIs(other));
  }

  /** `find` gives the same answer on two lists that agree wherever the predicate matches either. */
  lemma {:induction false} FindSameWhereMatching(s: seq<Item>, t: seq<Item>, p: Item -> bool)
    requires |s| == |t|
    requires forall i :: 0 <= i < |s| ==> p(s[i]) == p(t[i])
    requires forall i :: 0 <= i < |s| && p(s[i]) ==> s[i] == t[i]
    ensures Find(s, p) == Find(t, p)
    decreases |s|
  {
    if |s| > 0 && !p(s[0]) {
      FindSameWhereMatching(s[1..], t[1..], p);
    }
  }

  /**
   * `handleUpdateQuantity`: on success every element with the id takes the
   * new quantity and keeps all other fields. The value is not validated.
   */
  function UpdateQuantity(items: seq<Item>, id: Id, quantity: int, status: Outcome): (r: seq<Item>)
    ensures status.Failure? ==> r == items
    ensures |r| == |items|
    ensures forall i :: 0 <= i < |items| && items[i].id != id ==> r[i] == items[i]
    ensures status.Success? ==> forall i :: 0 <= i < |items| && items[i].id == id ==> r[i].quantity == quantity
    ensures forall i :: 0 <= i < |items| ==> r[i].(quantity := items[i].quantity) == items[i]
  {
    if status.Failure? then items else MapWhere(items, IdIs(id), (i: Item) => i.(quantity := quantity))
  }

  /** Setting the quantity twice leaves only the second value. */
  lemma UpdateQuantityLastWins(items: seq<Item>, id: Id, q1: int, q2: int)
    ensures UpdateQuantity(UpdateQuantity(items, id, q1, Success), id, q2, Success) == UpdateQuantity(items, id, q2, Success)
  {
  }
}

=== FILE: js_numbers.dfy ===
/** The few JavaScript number coercions the components rely on, over exact reals. */
module JsNumbers {
  import opened Wrappers

  /** A number that JavaScript treats as falsy: null/NaN (None) or zero. */
  predicate Falsy(x: Option<real>)
  {
    x.None? || x.value == 0.0
  }

  /** `x || d` on a number that may be null or NaN. */
  function OrDefault(x: Option<real>, d: real): real
  {
    if Falsy(x) then d else x.value
  }

  /** `x || d` on an integer that may be null or NaN (`parseInt`, nullable integer columns). */
  function OrDefaultInt(x: Option<int>, d: int): int
  {
    if x.None? || x.value == 0 then d else x.value
  }

  /** Arithmetic coercion of a nullable number: `null * y` is `0 * y` in JavaScript. */
  function NullAsZero(x: Option<real>): real
  {
    if x.None? then 0.0 else x.value
  }

  /** `Math.min(a, b)` on finite numbers. */
  function Min(a: real, b: real): real
  {
    if a <= b then a else b
  }

  /** The truth value JavaScript gives a nullable boolean. */
  predicate Truthy(b: Option<bool>)
  {
    b == Some(true)
  }
}

=== FILE: mock_page.dfy ===
/**
 * The standalone dashboard page with an in-memory item list (no backend):
 * items in the older camel-case shape, appended at the tail, replaced and
 * removed by id, and summarised by price and saved totals that ignore
 * quantity. A key an object lacks reads as `undefined`, modelled as `None`;
 * a saved total of `None` stands for NaN.
 */
module MockPage {
  import opened Wrappers
  import opened Entities
  import opened Collections
  import Progress

  /** The older item shape the page uses; `createdAt` is a clock reading taken as input. */
  datatype LegacyItem = LegacyItem(
    id: Id,
    name: string,
    description: string,
    price: real,
    amountSaved: Option<real>,
    imageUrl: Option<string>,
    createdAt: int)

  /** The parameter type `handleAddItem` declares: an item in the page's shape without id and creation time. */
  datatype LegacyDraft = LegacyDraft(name: string, description: string, price: real, amountSaved: real, imageUrl: string)

  /** The two sample items the page starts with (descriptions and image links left empty here). */
  const SeedItems: seq<LegacyItem> := [
    LegacyItem("1", "Máquina de Café Espresso", "", 850.0, Some(320.0), Some(""), 0),
    LegacyItem("2", "Sofá 3 Lugares", "", 1200.0, Some(450.0), Some(""), 0)]

  /** Matches the items carrying this id. */
  function IdIs(id: Id): LegacyItem -> bool
  {
    (it: LegacyItem) => it.id == id
  }

  /** `handleAddItem`, for its declared parameter type: the draft, given the id and time the caller supplies, appended at the tail. */
  function AddItem(items: seq<LegacyItem>, d: LegacyDraft, id: Id, createdAt: int): (r: seq<LegacyItem>)
    ensures |r| == |items| + 1
    ensures r[..|items|] == items
    ensures r[|items|].id == id && r[|items|].createdAt == createdAt
    ensures r[|items|] == LegacyItem(id, d.name, d.description, d.price, Some(d.amountSaved), Some(d.imageUrl), createdAt)
  {
    items + [LegacyItem(id, d.name, d.description, d.price, Some(d.amountSaved), Some(d.imageUrl), createdAt)]
  }

  /**
   * `handleAddItem` as the page wires it: the add dialog hands over its own
   * draft, whose `amount_saved` and `image_url` keys are not the page's
   * `amountSaved` and `imageUrl`, so after the spread the new item has
   * neither.
   */
  function AddFromDialogAsWritten(items: seq<LegacyItem>, d: NewItem, id: Id, createdAt: int): (r: seq<LegacyItem>)
    ensures |r| == |items| + 1
    ensures r[..|items|] == items
    ensures r[|items|].amountSaved.None? && r[|items|].imageUrl.None?
    ensures r[|items|].id == id && r[|items|].name == d.name && r[|items|].description == d.description
    ensures r[|items|].price == d.price && r[|items|].createdAt == createdAt
  {
    items + [LegacyItem(id, d.name, d.description, d.price, None, None, createdAt)]
  }

  /** The dialog's draft in the page's shape: `amount_saved` read as `amountSaved`, `image_url` as `imageUrl`. */
  function PageDraft(d: NewItem): (r: LegacyDraft)
    ensures r.name == d.name && r.description == d.description && r.price == d.price
    ensures r.amountSaved == d.amount_saved && r.imageUrl == d.image_url
  {
    LegacyDraft(d.name, d.description, d.price, d.amount_saved, d.image_url)
  }

  /** The intended wiring: the dialog's draft, translated to the page's keys, goes through `handleAddItem`. */
  function AddFromDialog(items: seq<LegacyItem>, d: NewItem, id: Id, createdAt: int): (r: seq<LegacyItem>)
    ensures |r| == |items| + 1
    ensures r[..|items|] == items
    ensures r[|items|].amountSaved == Some(d.amount_saved) && r[|items|].imageUrl == Some(d.image_url)
    ensures AddFromDialogAsWritten(items, d, id, createdAt)[|items|]
         == r[|items|].(amountSaved := None, imageUrl := None)
  {
    AddItem(items, PageDraft(d), id, createdAt)
  }

  /** `handleUpdateItem`: every element with the updated id is replaced; the rest stay in place. */
  function UpdateItem(items: seq<LegacyItem>, updated: LegacyItem): (r: seq<LegacyItem>)
    ensures |r| == |items|
    ensures forall i :: 0 <= i < |items| && items[i].id != updated.id ==> r[i] == items[i]
    ensures forall i :: 0 <= i < |items| && items[i].id == updated.id ==> r[i] == updated
  {
    MapWhere(items, IdIs(updated.id), _ => updated)
  }

  /** `handleDeleteItem`: the elements with other ids, in their order. */
  function DeleteItem(items: seq<LegacyItem>, id: Id): (r: seq<LegacyItem>)
    ensures |r| <= |items|
    ensures forall i :: 0 <= i < |r| ==> r[i].id != id && r[i] in items
    ensures forall i :: 0 <= i < |items| && items[i].id != id ==> items[i] in r
    ensures (forall i :: 0 <= i < |items| ==> items[i].id != id) ==> r == items
  {
    var r := Filter(items, Not(IdIs(id)));
    if forall i :: 0 <= i < |items| ==> items[i].id != id then
      FilterAllPass(items, Not(IdIs(id)));
      r
    else r
  }

  /** Deleting from a concatenation deletes from each part. */
  lemma DeleteKeepsOrder(a: seq<LegacyItem>, b: seq<LegacyItem>, id: Id)
    ensures DeleteItem(a + b, id) == DeleteItem(a, id) + DeleteItem(b, id)
  {
    FilterAppend(a, b, Not(IdIs(id)));
  }

  function PriceOf(it: LegacyItem): real
  {
    it.price
  }

  /** The saved amount of an item that has one (0 stands in for a missing one, which `AllSaved` rules out wherever it is summed). */
  function SavedOf(it: LegacyItem): real
  {
    if it.amountSaved.Some? then it.amountSaved.value else 0.0
  }

  /** Every item carries an `amountSaved`. */
  predicate AllSaved(items: seq<LegacyItem>)
  {
    forall i :: 0 <= i < |items| ==> items[i].amountSaved.Some?
  }

  /** `totalValue`: the sum of prices (this shape has no quantity); never negative when no price is. */
  function TotalValue(items: seq<LegacyItem>): (r: real)
    ensures (forall i :: 0 <= i < |items| ==> items[i].price >= 0.0) ==> r >= 0.0
  {
    SumNonNegativeWhen(items, PriceOf);
    Sum(items, PriceOf)
  }

  /**
   * `totalSaved`: the left fold over `amountSaved`; one missing value makes
   * the sum NaN, and NaN stays NaN. So the total is a number exactly when
   * every item has a saved amount, and then it is their sum.
   */
  function TotalSaved(items: seq<LegacyItem>): (r: Option<real>)
    ensures r.Some? <==> AllSaved(items)
    ensures r.Some? ==> r.value == Sum(items, SavedOf)
  {
    if |items| == 0 then Some(0.0)
    else
      var before := TotalSaved(items[..|items| - 1]);
      var last := items[|items| - 1].amountSaved;
      AllSavedSnoc(items);
      if before.Some? && last.Some? then Some(before.value + last.value) else None
  }

  /** A non-empty list has every saved amount exactly when its prefix and its last item do. */
  lemma AllSavedSnoc(items: seq<LegacyItem>)
    requires |items| > 0
    ensures AllSaved(items) <==> AllSaved(items[..|items| - 1]) && items[|items| - 1].amountSaved.Some?
  {
    var init := items[..|items| - 1];
    if AllSaved(init) && items[|items| - 1].amountSaved.Some? {
      forall i | 0 <= i < |items| ensures items[i].amountSaved.Some? {
        if i < |init| {
          assert items[i] == init[i];
        }
      }
    }
    if AllSaved(items) {
      forall i | 0 <= i < |init| ensures init[i].amountSaved.Some? {
        assert init[i] == items[i];
      }
    }
  }

  /** `progressPercentage`: 0 unless prices add up to more than zero; then NaN when the saved total is, and the guarded ratio otherwise. */
  function ProgressPercentage(items: seq<LegacyItem>): (p: Option<real>)
    ensures TotalValue(items) <= 0.0 ==> p == Some(0.0)
    ensures TotalValue(items) > 0.0 && TotalSaved(items).None? ==> p.None?
    ensures TotalValue(items) > 0.0 && TotalSaved(items).Some?
        ==> p.Some? && p.value * TotalValue(items) == TotalSaved(items).value * 100.0
  {
    var total := TotalValue(items);
    if total > 0.0 then
      match TotalSaved(items)
      case None => None
      case Some(saved) => Some(Progress.GlobalProgress(total, saved))
    else Some(0.0)
  }

  /** Appending an item adds its price to the price total and its saved amount to a defined saved total. */
  lemma {:induction false} TotalsAfterAdd(items: seq<LegacyItem>, d: LegacyDraft, id: Id, createdAt: int)
    ensures TotalValue(AddItem(items, d, id, createdAt)) == TotalValue(items) + d.price
    ensures TotalSaved(AddItem(items, d, id, createdAt))
         == if TotalSaved(items).Some? then Some(TotalSaved(items).value + d.amountSaved) else None
  {
    var x := LegacyItem(id, d.name, d.description, d.price, Some(d.amountSaved), Some(d.imageUrl), createdAt);
    SumAppend(items, [x], PriceOf);
    SumSingleton(x, PriceOf);
    assert (items + [x])[..|items|] == items;
  }

  /** One add through the dialog as wired turns the saved total into NaN for good, and the percentage too once prices are positive. */
  lemma {:induction false} DialogAddMakesTotalsNaN(items: seq<LegacyItem>, d: NewItem, id: Id, createdAt: int)
    ensures TotalSaved(AddFromDialogAsWritten(items, d, id, createdAt)).None?
    ensures TotalValue(AddFromDialogAsWritten(items, d, id, createdAt)) > 0.0
        ==> ProgressPercentage(AddFromDialogAsWritten(items, d, id, createdAt)).None?
    ensures forall later: seq<LegacyItem> :: TotalSaved(AddFromDialogAsWritten(items, d, id, createdAt) + later).None?
  {
    var r := AddFromDialogAsWritten(items, d, id, createdAt);
    forall later: seq<LegacyItem> ensures TotalSaved(r + later).None? {
      assert (r + later)[|items|] == r[|items|];
    }
  }

  /** The sample list plus one dialog item priced 500: the page showed 770 saved of 2050, and now shows NaN for both figures. */
  lemma SeedThenDialogAdd()
    ensures var r := AddFromDialogAsWritten(SeedItems, NewItem("Mesa", "", 500.0, 0.0, ""), "3", 1);
      TotalValue(r) == 2550.0 && TotalSaved(r).None? && ProgressPercentage(r).None?
  {
    var r := AddFromDialogAsWritten(SeedItems, NewItem("Mesa", "", 500.0, 0.0, ""), "3", 1);
    SeedSummary();
    SumAppend(SeedItems, [r[2]], PriceOf);
    SumSingleton(r[2], PriceOf);
    assert r == SeedItems + [r[2]];
    DialogAddMakesTotalsNaN(SeedItems, NewItem("Mesa", "", 500.0, 0.0, ""), "3", 1);
  }

  /** With the dialog's keys translated, adding raises the price total by the price and a defined saved total by the saved amount. */
  lemma {:induction false} DialogAddKeepsTotals(items: seq<LegacyItem>, d: NewItem, id: Id, createdAt: int)
    ensures TotalValue(AddFromDialog(items, d, id, createdAt)) == TotalValue(items) + d.price
    ensures TotalSaved(AddFromDialog(items, d, id, createdAt))
         == if TotalSaved(items).Some? then Some(TotalSaved(items).value + d.amount_saved) else None
  {
    TotalsAfterAdd(items, PageDraft(d), id, createdAt);
  }

  /** Deleting lowers the price total by exactly the removed items' prices. */
  lemma {:induction false} TotalValueAfterDelete(items: seq<LegacyItem>, id: Id)
    ensures TotalValue(DeleteItem(items, id)) == TotalValue(items) - Sum(Filter(items, IdIs(id)), PriceOf)
  {
    SumFilterSplit(items, PriceOf, IdIs(id));
  }

  /** Items drawn from a list that has every saved amount have every saved amount too. */
  lemma {:induction false} AllSavedOfMembers(items: seq<LegacyItem>, r: seq<LegacyItem>)
    requires AllSaved(items)
    requires forall i :: 0 <= i < |r| ==> r[i] in items
    ensures AllSaved(r)
  {
    forall i | 0 <= i < |r| ensures r[i].amountSaved.Some? {
      var j :| 0 <= j < |items| && items[j] == r[i];
    }
  }

  /** Deleting keeps a defined saved total defined, lowered by exactly the removed items' savings. */
  lemma {:induction false} TotalSavedAfterDelete(items: seq<LegacyItem>, id: Id)
    requires TotalSaved(items).Some?
    ensures TotalSaved(DeleteItem(items, id)) == Some(TotalSaved(items).value - Sum(Filter(items, IdIs(id)), SavedOf))
  {
    var r := DeleteItem(items, id);
    AllSavedOfMembers(items, r);
    SumFilterSplit(items, SavedOf, IdIs(id));
  }

  /** Updating the one item with an id puts the new item in its place. */
  lemma {:induction false} UpdateUnique(a: seq<LegacyItem>, x: LegacyItem, b: seq<LegacyItem>, u: LegacyItem)
    requires u.id == x.id
    requires forall i :: 0 <= i < |a| ==> a[i].id != x.id
    requires forall i :: 0 <= i < |b| ==> b[i].id != x.id
    ensures UpdateItem(a + [x] + b, u) == a + [u] + b
  {
    var s := a + [x] + b;
    var r := UpdateItem(s, u);
    forall i | 0 <= i < |s| ensures r[i] == (a + [u] + b)[i] {
      if i < |a| {
        assert s[i] == a[i];
      } else if i > |a| {
        assert s[i] == b[i - |a| - 1];
      }
    }
  }

  /** Replacing the one item with an id moves the price total by the change in price. */
  lemma {:induction false} TotalValueAfterUpdate(a: seq<LegacyItem>, x: LegacyItem, b: seq<LegacyItem>, u: LegacyItem)
    requires u.id == x.id
    requires forall i :: 0 <= i < |a| ==> a[i].id != x.id
    requires forall i :: 0 <= i < |b| ==> b[i].id != x.id
    ensures TotalValue(UpdateItem(a + [x] + b, u)) == TotalValue(a + [x] + b) - x.price + u.price
  {
    UpdateUnique(a, x, b, u);
    SumMiddle(a, x, b, PriceOf);
    SumMiddle(a, u, b, PriceOf);
  }

  /** Swapping one element for another that has a saved amount keeps every saved amount present. */
  lemma {:induction false} AllSavedSwap(a: seq<LegacyItem>, x: LegacyItem, b: seq<LegacyItem>, u: LegacyItem)
    requires AllSaved(a + [x] + b) && u.amountSaved.Some?
    ensures AllSaved(a + [u] + b)
  {
    var s := a + [x] + b;
    var r := a + [u] + b;
    forall i | 0 <= i < |r| ensures r[i].amountSaved.Some? {
      if i != |a| {
        assert r[i] == s[i];
      }
    }
  }

  /** Replacing the one item with an id by one that has a saved amount moves a defined saved total by the change in savings. */
  lemma {:induction false} TotalSavedAfterUpdate(a: seq<LegacyItem>, x: LegacyItem, b: seq<LegacyItem>, u: LegacyItem)
    requires u.id == x.id
    requires forall i :: 0 <= i < |a| ==> a[i].id != x.id
    requires forall i :: 0 <= i < |b| ==> b[i].id != x.id
    requires TotalSaved(a + [x] + b).Some? && u.amountSaved.Some?
    ensures TotalSaved(UpdateItem(a + [x] + b, u)) == Some(TotalSaved(a + [x] + b).value - SavedOf(x) + SavedOf(u))
  {
    var s := a + [x] + b;
    var r := a + [u] + b;
    UpdateUnique(a, x, b, u);
    assert AllSaved(s) && TotalSaved(s).value == Sum(s, SavedOf);
    AllSavedSwap(a, x, b, u);
    assert TotalSaved(r) == Some(Sum(r, SavedOf));
    SumMiddle(a, x, b, SavedOf);
    SumMiddle(a, u, b, SavedOf);
  }

  /** The sample list totals 2050 in prices and 770 saved, and its bar is below full. */
  lemma SeedSummary()
    ensures TotalValue(SeedItems) == 2050.0 && TotalSaved(SeedItems) == Some(770.0)
    ensures ProgressPercentage(SeedItems).Some? && ProgressPercentage(SeedItems).value < 100.0
  {
    assert SeedItems[..1] == [SeedItems[0]];
    assert [SeedItems[0]][..0] == [];
    SumSingleton(SeedItems[0], PriceOf);
    Progress.GlobalProgressFull(2050.0, 770.0);
  }
}

=== FILE: progress.dfy ===
/**
 * Progress arithmetic shown by the summary panels and the item cards: the
 * guarded global percentage, the unguarded per-item percentage, the bar
 * width capped at 100 and the unclamped remaining amounts.
 */
module Progress {
  import opened Entities
  import JsNumbers

  /** The summary percentage: 0 unless the total value is positive. */
  function GlobalProgress(totalValue: real, totalSaved: real): (p: real)
    ensures totalValue <= 0.0 ==> p == 0.0
    ensures totalValue > 0.0 ==> p * totalValue == totalSaved * 100.0
  {
    if totalValue > 0.0 then (totalSaved / totalValue) * 100.0 else 0.0
  }

  /** With a positive total, the summary reaches 100% exactly when the savings cover the total. */
  lemma GlobalProgressFull(totalValue: real, totalSaved: real)
    requires totalValue > 0.0
    ensures GlobalProgress(totalValue, totalSaved) >= 100.0 <==> totalSaved >= totalValue
  {
    var p := GlobalProgress(totalValue, totalSaved);
    if p >= 100.0 {
      assert p * totalValue >= 100.0 * totalValue;
    }
    if totalSaved >= totalValue {
      assert p * totalValue >= 100.0 * totalValue;
    }
  }

  /** More savings never lower the summary percentage. */
  lemma GlobalProgressMonotone(totalValue: real, saved1: real, saved2: real)
    requires saved1 <= saved2
    ensures GlobalProgress(totalValue, saved1) <= GlobalProgress(totalValue, saved2)
  {
    if totalValue > 0.0 {
      var p1 := GlobalProgress(totalValue, saved1);
      var p2 := GlobalProgress(totalValue, saved2);
      assert p1 * totalValue <= p2 * totalValue;
    }
  }

  /** `Math.min(progress, 100)`: the width of a progress bar, in percent. */
  function BarWidth(progress: real): (w: real)
    ensures w <= 100.0
    ensures w == progress || w == 100.0
    ensures progress <= 100.0 ==> w == progress
    ensures progress >= 100.0 ==> w == 100.0
  {
    JsNumbers.Min(progress, 100.0)
  }

  /** The summary's "still missing" amount: total minus saved, not clamped at zero. */
  function Remaining(totalValue: real, totalSaved: real): (r: real)
    ensures r + totalSaved == totalValue
    ensures r < 0.0 <==> totalSaved > totalValue
  {
    totalValue - totalSaved
  }

  /** An item card's percentage. The card divides by the price without a guard. */
  function ItemProgress(item: Item): (p: real)
    requires item.price != 0.0
    ensures p * item.price == item.amount_saved * 100.0
  {
    (item.amount_saved / item.price) * 100.0
  }

  /** An item card's remaining amount: price minus saved, ignoring quantity, not clamped. */
  function ItemRemaining(item: Item): (r: real)
    ensures r + item.amount_saved == item.price
  {
    item.price - item.amount_saved
  }

  /** The remaining amount does not depend on the item's quantity. */
  lemma ItemRemainingIgnoresQuantity(item: Item, q: int)
    ensures ItemRemaining(item.(quantity := q)) == ItemRemaining(item)
  {
  }

  /** The card shows "goal reached" when the remaining amount is not positive. */
  predicate GoalReached(item: Item): (reached: bool)
    ensures reached <==> item.amount_saved >= item.price
  {
    !(ItemRemaining(item) > 0.0)
  }

  /** For a positive price, the goal is reached exactly when the card shows 100% or more, and then the bar is full. */
  lemma GoalReachedIffFullBar(item: Item)
    requires item.price > 0.0
    ensures GoalReached(item) <==> ItemProgress(item) >= 100.0
    ensures GoalReached(item) ==> BarWidth(ItemProgress(item)) == 100.0
  {
    var p := ItemProgress(item);
    if p >= 100.0 {
      assert p * item.price >= 100.0 * item.price;
    }
    if item.amount_saved >= item.price {
      assert p * item.price >= 100.0 * item.price;
    }
  }
}

=== FILE: shopping_list.dfy ===
/**
 * The shopping list: rows are kept as the backend returns them, nulls
 * included, each mutation is applied locally only after its backend call
 * succeeds, and two totals are recomputed from the list on every render.
 */
module ShoppingList {
  import opened Wrappers
  import opened Entities
  import opened Collections
  import JsNumbers

  /** The "new item" inputs. */
  datatype Draft = Draft(name: string, quantity: int, price: real)

  /** The draft the list starts with and returns to after an add. */
  const EmptyDraft: Draft := Draft("", 1, 0.0)

  /** The component's state: the rows, newest first, and the draft. */
  datatype State = State(items: seq<ShoppingItem>, draft: Draft)

  /** The characters `String.prototype.trim` removes: white space and line terminators. */
  predicate IsWhitespace(c: char)
  {
    || c == ' ' || c == '\t' || c == '\n' || c == '\r' || c == '\U{000B}' || c == '\U{000C}'
    || c == '\U{00A0}' || c == '\U{1680}' || ('\U{2000}' <= c <= '\U{200A}')
    || c == '\U{2028}' || c == '\U{2029}' || c == '\U{202F}' || c == '\U{205F}'
    || c == '\U{3000}' || c == '\U{FEFF}'
  }

  /** `s.trim()` is empty. */
  predicate Blank(s: string)
  {
    forall i :: 0 <= i < |s| ==> IsWhitespace(s[i])
  }

  /** Matches the rows carrying this id. */
  function HasId(id: Id): ShoppingItem -> bool
  {
    (it: ShoppingItem) => it.id == id
  }

  /** `fetchItems`: on success the rows as returned (`data || []`); on error the list is kept. */
  function FetchItems(current: seq<ShoppingItem>, response: Response<Option<seq<ShoppingItem>>>): (r: seq<ShoppingItem>)
    ensures response.Err? ==> r == current
    ensures response.Ok? && response.data.None? ==> r == []
    ensures response.Ok? && response.data.Some? ==> r == response.data.value
  {
    match response
    case Err => current
    case Ok(data) => if data.None? then [] else data.value
  }

  /** The quantity input stores `parseInt(text) || 1`, so the draft quantity is never 0. */
  function SetDraftQuantity(d: Draft, parsed: Option<int>): (r: Draft)
    ensures r.(quantity := d.quantity) == d
    ensures r.quantity != 0
    ensures parsed.Some? && parsed.value != 0 ==> r.quantity == parsed.value
  {
    d.(quantity := JsNumbers.OrDefaultInt(parsed, 1))
  }

  /** The price input stores `parseFloat(text) || 0`. */
  function SetDraftPrice(d: Draft, parsed: Option<real>): (r: Draft)
    ensures r.(price := d.price) == d
    ensures r.price == 0.0 <==> JsNumbers.Falsy(parsed)
    ensures !JsNumbers.Falsy(parsed) ==> r.price == parsed.value
  {
    d.(price := JsNumbers.OrDefault(parsed, 0.0))
  }

  /**
   * `addItem`: a blank name returns before any request. Otherwise the row the
   * backend returns goes to the head of the list and the draft is reset; on
   * error nothing changes.
   */
  function AddItem(st: State, response: Response<ShoppingItem>): (r: State)
    ensures Blank(st.draft.name) || response.Err? ==> r == st
    ensures !Blank(st.draft.name) && response.Ok? ==>
      |r.items| == |st.items| + 1 && r.items[0] == response.data && r.items[1..] == st.items
    ensures !Blank(st.draft.name) && response.Ok? ==> r.draft == EmptyDraft
  {
    if Blank(st.draft.name) then st
    else match response
      case Err => st
      case Ok(row) => State([row] + st.items, EmptyDraft)
  }

  /**
   * `togglePurchased(id, current)`: on success each row with the id gets
   * `!current`, where `current` is the flag the list rendered (`!null` is true).
   */
  function TogglePurchased(items: seq<ShoppingItem>, id: Id, current: Option<bool>, status: Outcome): (r: seq<ShoppingItem>)
    ensures status.Failure? ==> r == items
    ensures |r| == |items|
    ensures forall i :: 0 <= i < |items| && items[i].id != id ==> r[i] == items[i]
    ensures forall i :: 0 <= i < |items| ==> r[i].(is_purchased := items[i].is_purchased) == items[i]
    ensures status.Success? ==> forall i :: 0 <= i < |items| && items[i].id == id ==>
      r[i].is_purchased == Some(!JsNumbers.Truthy(current))
  {
    if status.Failure? then items
    else MapWhere(items, HasId(id), (it: ShoppingItem) => it.(is_purchased := Some(!JsNumbers.Truthy(current))))
  }

  /** Toggling a row with a set flag twice restores the list. */
  lemma ToggleTwiceRestores(items: seq<ShoppingItem>, id: Id, b: bool)
    requires forall i :: 0 <= i < |items| && items[i].id == id ==> items[i].is_purchased == Some(b)
    ensures TogglePurchased(TogglePurchased(items, id, Some(b), Success), id, Some(!b), Success) == items
  {
    var r := TogglePurchased(TogglePurchased(items, id, Some(b), Success), id, Some(!b), Success);
    assert |r| == |items|;
    forall i | 0 <= i < |items| ensures r[i] == items[i] {
      if items[i].id == id {
        assert r[i] == items[i].(is_purchased := Some(b));
      }
    }
  }

  /** A row whose flag is null is not restored by two toggles: it ends up explicitly unpurchased. */
  lemma ToggleTwiceFromNull(items: seq<ShoppingItem>, k: nat)
    requires k < |items| && items[k].is_purchased.None?
    ensures TogglePurchased(TogglePurchased(items, items[k].id, None, Success), items[k].id, Some(true), Success)[k].is_purchased == Some(false)
  {
  }

  /** `deleteItem`: on success the rows with other ids, in their order. */
  function DeleteItem(items: seq<ShoppingItem>, id: Id, status: Outcome): (r: seq<ShoppingItem>)
    ensures status.Failure? ==> r == items
    ensures status.Success? ==> forall i :: 0 <= i < |r| ==> r[i].id != id && r[i] in items
    ensures forall i :: 0 <= i < |items| && items[i].id != id ==> items[i] in r
    ensures |r| <= |items|
    ensures (forall i :: 0 <= i < |items| ==> items[i].id != id) ==> r == items
  {
    if status.Failure? then items
    else if forall i :: 0 <= i < |items| ==> items[i].id != id then
      FilterAllPass(items, Not(HasId(id)));
      Filter(items, Not(HasId(id)))
    else
      Filter(items, Not(HasId(id)))
  }

  /** Deleting from a concatenation deletes from each part: the order of what remains is kept. */
  lemma DeleteKeepsOrder(a: seq<ShoppingItem>, b: seq<ShoppingItem>, id: Id)
    ensures DeleteItem(a + b, id, Success) == DeleteItem(a, id, Success) + DeleteItem(b, id, Success)
  {
    FilterAppend(a, b, Not(HasId(id)));
  }

  /** `updateItemPrice`: on success each row with the id gets the new price; nothing else changes. */
  function UpdateItemPrice(items: seq<ShoppingItem>, id: Id, price: real, status: Outcome): (r: seq<ShoppingItem>)
    ensures status.Failure? ==> r == items
    ensures |r| == |items|
    ensures forall i :: 0 <= i < |items| && items[i].id != id ==> r[i] == items[i]
    ensures forall i :: 0 <= i < |items| ==> r[i].(price := items[i].price) == items[i]
    ensures status.Success? ==> forall i :: 0 <= i < |items| && items[i].id == id ==> r[i].price == Some(price)
  {
    if status.Failure? then items
    else MapWhere(items, HasId(id), (it: ShoppingItem) => it.(price := Some(price)))
  }

  /** A row's line value `price * quantity`, with null read as 0 as JavaScript multiplication does. */
  function LineValue(it: ShoppingItem): (r: real)
    ensures it.price.None? || it.quantity.None? ==> r == 0.0
    ensures it.price.Some? && it.quantity.Some? ==> r == it.price.value * it.quantity.value as real
    ensures it.price.Some? && it.quantity.Some? && it.price.value >= 0.0 && it.quantity.value >= 0 ==> r >= 0.0
  {
    JsNumbers.NullAsZero(it.price) * (if it.quantity.None? then 0.0 else it.quantity.value as real)
  }

  /** The purchased flag as the filter reads it: only `true` counts. */
  predicate IsPurchased(it: ShoppingItem)
  {
    JsNumbers.Truthy(it.is_purchased)
  }

  /** No row has a negative line value. */
  predicate NonNegativeLines(items: seq<ShoppingItem>)
  {
    forall i :: 0 <= i < |items| ==> LineValue(items[i]) >= 0.0
  }

  /** `totalValue`: the sum of all line values; never negative when no line is. */
  function TotalValue(items: seq<ShoppingItem>): (r: real)
    ensures NonNegativeLines(items) ==> r >= 0.0
  {
    SumNonNegativeWhen(items, LineValue);
    Sum(items, LineValue)
  }

  /**
   * `purchasedValue`: the sum of the line values of purchased rows. With no
   * negative line it lies between 0 and the total.
   */
  function PurchasedValue(items: seq<ShoppingItem>): (r: real)
    ensures NonNegativeLines(items) ==> 0.0 <= r <= TotalValue(items)
  {
    if NonNegativeLines(items) then
      SumFilterSplit(items, LineValue, IsPurchased);
      SumNonNegative(Filter(items, IsPurchased), LineValue);
      SumNonNegative(Filter(items, Not(IsPurchased)), LineValue);
      Sum(Filter(items, IsPurchased), LineValue)
    else
      Sum(Filter(items, IsPurchased), LineValue)
  }

  /**
   * The price input is disabled on a bought row, so the page only re-prices
   * rows that are not bought; doing so leaves the purchased total as it was.
   */
  lemma RepriceOpenKeepsPurchased(items: seq<ShoppingItem>, id: Id, price: real, status: Outcome)
    requires forall i :: 0 <= i < |items| && items[i].id == id ==> !IsPurchased(items[i])
    ensures PurchasedValue(UpdateItemPrice(items, id, price, status)) == PurchasedValue(items)
  {
    var r := UpdateItemPrice(items, id, price, status);
    forall i | 0 <= i < |items|
      ensures r[i].is_purchased == items[i].is_purchased
    {
      assert r[i].(price := items[i].price) == items[i];
    }
    FilterSamePassing(r, items, IsPurchased);
  }

  /** The total is the purchased part plus the unpurchased part. */
  lemma TotalSplitsByPurchase(items: seq<ShoppingItem>)
    ensures TotalValue(items) == PurchasedValue(items) + Sum(Filter(items, Not(IsPurchased)), LineValue)
  {
    SumFilterSplit(items, LineValue, IsPurchased);
  }

  /** A successful add raises the total by the new row's line value. */
  lemma TotalAfterAdd(st: State, row: ShoppingItem)
    requires !Blank(st.draft.name)
    ensures TotalValue(AddItem(st, Ok(row)).items) == LineValue(row) + TotalValue(st.items)
  {
    SumCons(row, st.items, LineValue);
  }

  /** A successful delete lowers the total by the line values of the removed rows. */
  lemma {:induction false} TotalAfterDelete(items: seq<ShoppingItem>, id: Id)
    ensures TotalValue(DeleteItem(items, id, Success)) == TotalValue(items) - Sum(Filter(items, HasId(id)), LineValue)
  {
    SumFilterSplit(items, LineValue, HasId(id));
  }

  /** Toggling changes no line value, so the total stays. */
  lemma ToggleKeepsTotal(items: seq<ShoppingItem>, id: Id, current: Option<bool>, status: Outcome)
    ensures TotalValue(TogglePurchased(items, id, current, status)) == TotalValue(items)
  {
    var r := TogglePurchased(items, id, current, status);
    forall i | 0 <= i < |items| ensures LineValue(r[i]) == LineValue(items[i]) {
      assert r[i].(is_purchased := items[i].is_purchased) == items[i];
    }
    SumPointwise(r, items, LineValue);
  }

  /** Re-pricing the one row with an id moves the total by the change in that row's line value. */
  lemma TotalAfterPriceUpdate(a: seq<ShoppingItem>, x: ShoppingItem, b: seq<ShoppingItem>, price: real)
    requires forall i :: 0 <= i < |a| ==> a[i].id != x.id
    requires forall i :: 0 <= i < |b| ==> b[i].id != x.id
    ensures TotalValue(UpdateItemPrice(a + [x] + b, x.id, price, Success))
         == TotalValue(a + [x] + b) - LineValue(x) + LineValue(x.(price := Some(price)))
  {
    var s := a + [x] + b;
    var r := UpdateItemPrice(s, x.id, price, Success);
    var x' := x.(price := Some(price));
    assert r == a + [x'] + b by {
      forall i | 0 <= i < |s| ensures r[i] == (a + [x'] + b)[i] {
        if i < |a| {
          assert s[i] == a[i];
        } else if i > |a| {
          assert s[i] == b[i - |a| - 1];
        }
      }
    }
    SumAppend(a + [x'], b, LineValue);
    SumAppend(a, [x'], LineValue);
    SumAppend(a + [x], b, LineValue);
    SumAppend(a, [x], LineValue);
    SumSingleton(x, LineValue);
    SumSingleton(x', LineValue);
  }

  /** Two rows, 2 x 10 unpurchased and 1 x 5 purchased: total 25, purchased 5. */
  lemma TwoRowTotals()
    ensures var items := [ShoppingItem("a", "rice", Some(2), Some(10.0), Some(false), None, "", ""),
                          ShoppingItem("b", "soap", Some(1), Some(5.0), Some(true), None, "", "")];
      TotalValue(items) == 25.0 && PurchasedValue(items) == 5.0
  {
    var items := [ShoppingItem("a", "rice", Some(2), Some(10.0), Some(false), None, "", ""),
                  ShoppingItem("b", "soap", Some(1), Some(5.0), Some(true), None, "", "")];
    assert items[..1][..0] == [];
    assert items[..1] == [items[0]];
    assert Filter(items, IsPurchased) == [items[1]] by {
      assert Filter(items[..1], IsPurchased) == [];
    }
    SumSingleton(items[1], LineValue);
  }
}

=== FILE: wrappers.dfy ===
/** Small failure-carrying datatypes shared by every module of the ledger model. */
module Wrappers {

  /** A value that may be absent: a nullable column, or a JavaScript number that is NaN. */
  datatype Option<+T> = None | Some(value: T)

  /** What a call into the hosted backend returned: the row(s), or the error it reported. */
  datatype Response<+T> = Ok(data: T) | Err

  /** Outcome of a backend call whose data the client does not read. */
  datatype Outcome = Success | Failure
}
